=== FILE: README.md ===
# ValidNews settlement, in Dafny

ValidNews is a community fact-checking web app. Users submit news stories.
The community votes each story true or false within a voting window. Once a
story is tallied, the submission fee is split between the correct voters and
the admin who triggers the distribution, and voter reputation is adjusted.

This project models:

- **The live settlement engine** of the admin dashboard (`AdminSettlement`,
  over the records of `Ledger`):
  - the "Tally Votes" gate;
  - the binary verdict;
  - the 60/40 fee split;
  - +2 reputation per correct vote and the guarded −1 penalty per incorrect vote;
  - the `vote_reward` and `admin_fee` ledger rows;
  - the forward-only status `voting → tallied → distributed`.
- **The countdown** shown beside each story (`Countdown`). It uses
  JavaScript's truncating `%`.
- **The alternative finalization rules** in `lib/storyFinalization.ts`
  (`StoryFinalization`). Every line of that file is commented out, so it is a
  second rule set, not running behaviour. `FeeComparison` puts the two rule
  sets side by side on a story nobody judged correctly.
- **The community feed**: the local vote handler (`FeedPage`) and the display
  helpers (`FeedDisplay`): the status badge, the percentages, the "time ago"
  bucket and the vote noun.
- **The three submission forms** (`VerifyForm`, `SubmitPage`, `SubmitClaim`),
  on top of JavaScript's `trim` and `slice` (`JsString`).
- **The address shortener**, which exists in two copies (`WalletConnect`,
  `Navbar`), and the two class strings the wallet button computes.
- **The "how it works" step carousel** (`HowItWorks`).

Modelling choices:

- The database is an in-memory `Ledger.Store`: a map of users, a sequence of
  votes, an append-only sequence of transactions and one story. Every
  Supabase round trip becomes a pure state transition.
- Money is an exact `real`, so 0.6 and 0.4 are exact. Reputation is an `int`.
- Every timestamp is an `int` number of milliseconds. The clock (`now`) is a
  parameter.
- `Math.round` is floor(x + ½) over exact reals.

Behaviour of the code that the model keeps as written:

- The pages that work on the store (the feed and the admin dashboard) have
  no vote cap, no one-vote-per-user guard and no voting-window check at vote
  time. The feed's local vote handler adds a vote on every click. The only
  per-user vote handling is the claim page's replace-on-revote toggle
  (app/claim/[id]/page.js:92-118). It works on the mock data service and
  never reaches the store.
- A voter is penalised only while holding at least 5 points, so penalties
  take a voter who starts at 5 or more down to 4 at the lowest.
- The correct-vote award is +2 in the live engine and +10 in the alternative
  rules.
- The live engine credits the 40% admin fee to the calling admin's own row.
- With a positive fee, the rows the live engine appends add up to the whole
  fee if:
  - at least one vote is correct;
  - every correct voter has a user row;
  - the admin has a row.
  With no correct vote, only the 40% admin fee is paid.
- `tallyVotes` checks neither the status nor the clock. It only looks the
  story up in the dashboard's list, which holds stories still being voted on
  or already tallied. So, once the list has been refreshed, an unknown id or
  a distributed story is not found. The dashboard's button condition gates
  the action, and `CloseVoting` models that button.
- Once the dashboard list has been refreshed, distributing again is rejected
  with "Story must be tallied first". Both handlers read their guard from
  that cached list. The refresh after a tally or a distribution is not
  awaited (app/admin/page.tsx:75, 187). `Tally` and `Distribute` read the
  stored story, which is the list after its refresh. `DistributeCached`
  reads the guard from a cached copy (see "## Findings").
- The alternative rules split the constant `SUBMISSION_FEE`, not the story's
  own fee.

## Model

| member | source | states |
|---|---|---|
| Ledger.VotesFor | app/admin/page.tsx:94-97 | the votes fetched for a story are exactly the store's votes whose story id matches |
| Ledger.WithDecision | app/admin/page.tsx:102-103 | a filtered vote is in the result exactly when its decision equals the one asked for |
| Ledger.VotesForCounts | app/admin/page.tsx:94-97 | filtering by story keeps every copy of each vote on that story and no vote on another story, as multiset counts |
| Ledger.WithDecisionCounts | app/admin/page.tsx:101-103 | filtering by decision keeps every copy of each vote with that decision and no other vote, as multiset counts |
| AdminSettlement.CanTallyWindow | app/admin/page.tsx:50-53 | the gate `CanTally` (clock strictly past the voting end, story still in voting) stays true as time goes on; after a tally it is never true again |
| AdminSettlement.Tally | app/admin/page.tsx:33-70 | an id that is unknown or whose story is distributed, and so absent from the dashboard's list, is rejected as not found; otherwise status becomes tallied, the verdict is true iff true votes strictly outnumber false ones (ties and 0–0 give false), and nothing else on the story, the users, votes or transactions changes |
| AdminSettlement.CloseVoting | app/admin/page.tsx:346-348 | the tally action is offered exactly when `CanTally` holds, and then moves the story to tallied |
| AdminSettlement.RewardPerVoter | app/admin/page.tsx:105-108 | with k > 0 correct votes, k rewards add up to exactly the voters' pool; with none the reward is 0 |
| AdminSettlement.ReputationAfterPenalties | app/admin/page.tsx:137-152 | repeated guarded penalties never raise reputation, leave a holder of fewer than 5 points alone, never go below 4 from 5 or more, never make a non-negative value negative, and do nothing with no incorrect vote |
| AdminSettlement.Penalized | app/admin/page.tsx:144-151 | one incorrect vote is the closed-form penalty with n = 1 |
| AdminSettlement.Rewarded | app/admin/page.tsx:117-124 | one correct vote changes a user row exactly as the reference `Settled` does for one correct vote, no incorrect vote and no admin credit |
| AdminSettlement.CreditCorrect | app/admin/page.tsx:110-135 | crediting correct voters never creates or removes a user row |
| AdminSettlement.CreditCorrectAt | app/admin/page.tsx:110-135 | a user with a row gains exactly +2 reputation and one reward per correct vote of theirs, and no other field changes |
| AdminSettlement.PenalizeIncorrect | app/admin/page.tsx:137-152 | penalising incorrect voters never creates or removes a user row |
| AdminSettlement.PenalizeIncorrectAt | app/admin/page.tsx:137-152 | a user's reputation after the penalty loop is the closed form with one penalty per incorrect vote, and no other field changes |
| AdminSettlement.RewardTransactions | app/admin/page.tsx:126-133 | one `vote_reward` row per correct vote whose voter has a row, each for this story with the per-voter amount |
| AdminSettlement.AdminTransactions | app/admin/page.tsx:154-176 | at most one `admin_fee` row, present exactly when the caller has a row, and then naming the caller and the story and carrying the whole admin fee |
| AdminSettlement.CreditAdmin | app/admin/page.tsx:154-166 | only the calling admin's row gains the admin fee, only if it exists, and no row is created or removed |
| AdminSettlement.Distribute | app/admin/page.tsx:84-181 | rejected with "must be tallied first" exactly when the story is not the one asked for or not tallied; otherwise the story becomes distributed, votes and the user key set are kept, and the log grows by exactly the reward rows then the admin row |
| AdminSettlement.VotesPartition | app/admin/page.tsx:101-103 | every vote lands in exactly one group, correct iff its decision equals `final_result === "true"`, and the group sizes add up to the vote count |
| AdminSettlement.RewardTransactionsFor | app/admin/page.tsx:110-134 | for each voter with a row, the `vote_reward` rows number one per correct vote and sum to one reward each, and hold no `admin_fee` row |
| AdminSettlement.RewardTransactionsTotal | app/admin/page.tsx:126-133 | the reward rows add up to one reward per correct vote whose voter has a row |
| AdminSettlement.DistributeUser | app/admin/page.tsx:110-176 | a user row after distribution equals the reference `Settled`: +2 and one reward per correct vote, then one guarded penalty per incorrect vote, then the admin fee if the user is the caller |
| AdminSettlement.SettleRow | app/admin/page.tsx:110-176 | applying the correct-voter loop, the penalty loop and the admin credit to any users table leaves each existing row equal to the reference `Settled` for its vote counts |
| AdminSettlement.SingleVoteEffect | app/admin/page.tsx:110-152 | a single correct vote earns exactly +2 and one reward; a single incorrect vote costs 1 point only at 5 or more, never below 4 and never below zero, and no earnings |
| AdminSettlement.DistributeBalances | app/admin/page.tsx:117-176 | every user's earnings grow by exactly the sum of the rows appended for that user |
| AdminSettlement.DistributeRows | app/admin/page.tsx:126-175 | each voter with a row gets one `vote_reward` row per correct vote, the caller exactly one `admin_fee` row, and every row names the story |
| AdminSettlement.DistributeTotal | app/admin/page.tsx:105-176 | the appended rows add up to one reward per correct vote with a user row, plus the admin fee when the caller has a row |
| AdminSettlement.DistributeConservesFee | app/admin/page.tsx:105-108 | with k > 0 correct voters, all with rows, and the admin found, the appended rows add up to exactly the submission fee |
| AdminSettlement.DistributeForfeitsPool | app/admin/page.tsx:105-108 | with no correct voter the reward is 0, only the 40% admin fee is paid, and every appended row is an `admin_fee` row |
| AdminSettlement.DistributeOnce | app/admin/page.tsx:33-92 | once the dashboard list has been refreshed, a distributed story is rejected by a second distribution, is not offered for tallying and cannot be tallied again, so money moves once per story |
| AdminSettlement.ActionsAdvanceStatus | app/admin/page.tsx:62-70 | with guards read from the refreshed list, each successful dashboard action moves the status exactly one step forward in voting, tallied, distributed |
| AdminSettlement.DistributeCached | app/admin/page.tsx:84-192 | the handler as written, with the guard, verdict and fee read from the cached story: rejected exactly when the cached story is not the one asked for or not tallied; otherwise the loops' rows are appended and only the status of the stored row with that id becomes distributed, every other column kept; the same as `Distribute` when the cache matches the store |
| AdminSettlement.StaleListPaysTwice | app/admin/page.tsx:84-192 | after one distribution, a second click on the still-tallied cached entry passes the guard, appends the whole set of distribution rows again and leaves the status at distributed |
| Countdown.JsRem | app/admin/page.tsx:275 | JavaScript's remainder: the sign follows the dividend, the magnitude is below the divisor, and dividend minus remainder is a multiple of the divisor |
| Countdown.FloorDiv | app/admin/page.tsx:274 | `Math.floor(a / b)` is the greatest q with q·b ≤ a |
| Countdown.TimeLeft | app/admin/page.tsx:273-275 | hours left are non-negative and minutes left lie in 0..59 |
| Countdown.TimeLeftIsWholeMinutes | app/admin/page.tsx:273-275 | before the deadline, hours·60 + minutes is the number of whole minutes left; after it both read 0 |
| StoryFinalization.SelectExpired | lib/storyFinalization.ts:28-35 | a story is selected iff it has no verdict and was created strictly before a day ago |
| StoryFinalization.Verdict | lib/storyFinalization.ts:56-66 | the verdict is true iff there are votes and true votes strictly outnumber false ones |
| StoryFinalization.AwardReputation | lib/storyFinalization.ts:180-198 | awarding reputation never creates or removes a user row |
| StoryFinalization.AwardReputationAt | lib/storyFinalization.ts:126-128 | a user with a row gains exactly 10 reputation per correct vote, and nothing else about the user changes |
| StoryFinalization.VoterTransactions | lib/storyFinalization.ts:158-171 | one `voting_reward` row per correct vote, in order, naming that voter and the story |
| StoryFinalization.VoterTransactionsTotal | lib/storyFinalization.ts:117-129 | the voter rows add up to one reward per correct vote |
| StoryFinalization.PayoutTransactions | lib/storyFinalization.ts:111-129 | one more row than correct votes: the builder wallet's `platform_fee` row first, then a `voting_reward` row for each correct voter in order, all naming the story |
| StoryFinalization.DistributeRewards | lib/storyFinalization.ts:91-134 | with no vote rows the store is unchanged; otherwise exactly the payout rows for the correct votes are appended, each user's reputation rises by 10 per correct vote, no earnings change and no user row is created or removed |
| StoryFinalization.FinalizeStory | lib/storyFinalization.ts:54-84 | the verdict is recorded; with votes counted and vote rows present, exactly the payout rows for the voters matching the verdict are appended; otherwise users and transactions are untouched |
| StoryFinalization.FinalizeExpired | lib/storyFinalization.ts:26-47 | a story that is not expired is left as it is; an expired one gets its verdict |
| StoryFinalization.FinalizeOnce | lib/storyFinalization.ts:29-35 | a finalized story is never selected again, so a second sweep changes nothing |
| StoryFinalization.NoCorrectVoterPaysPlatform | lib/storyFinalization.ts:111-115 | with no correct voter a single platform row carries the whole fee |
| StoryFinalization.PayoutConservesFee | lib/storyFinalization.ts:117-129 | the payout rows add up to exactly the fee; with k > 0 the first is the 40% platform row and each other row is a `voting_reward` row for one voter, k of them making up 60% |
| StoryFinalization.FinalizeConservesFee | lib/storyFinalization.ts:81-129 | rows are appended exactly when votes were counted and the story has vote rows, and then they add up to exactly the fee; otherwise the log is unchanged |
| StoryFinalization.FinalizeReputation | lib/storyFinalization.ts:103-129 | a voter gains exactly 10 per correct vote, and a user with no correct vote is unchanged, so incorrect voters are not penalised |
| FeeComparison.NoCorrectVoterPayouts | app/admin/page.tsx:105-108 | with no correct voter the live engine pays out 40% of the fee and the alternative rules the whole fee, so at a fee of 1 the live engine pays 0.6 less |
| FeedPage.HandleVote | app/feed/page.tsx:45-58 | length and order are kept, stories with another id are unchanged, and the matching story gains exactly one vote on the chosen side with every other field kept |
| FeedPage.VoteTimesCounts | app/feed/page.tsx:45-58 | with no duplicate-vote guard, n clicks raise the chosen counter by exactly n and change nothing else |
| FeedDisplay.StatusTextCases | app/components/Feed.tsx:34-43 | "true" reads Verified True, "false" Verified False, and every other status Pending |
| FeedDisplay.BadgeAgrees | app/components/Feed.tsx:23-43 | the badge colour and text agree on every status: green with Verified True, red with Verified False, yellow with Pending |
| FeedDisplay.Round | app/components/Feed.tsx:48-49 | the rounded value is within half a unit of the argument, halves rounding up |
| FeedDisplay.CalculatePercentage | app/components/Feed.tsx:45-51 | with no votes both percentages are 0; with a positive total t, each side's percentage is (200·count + t) div 2t, its share rounded half up |
| FeedDisplay.RoundedShare | app/components/Feed.tsx:48-49 | the rounded share of c votes out of t equals the integer quotient (200c + t) div 2t |
| FeedDisplay.PercentagesSum | app/components/Feed.tsx:45-51 | with votes, each percentage is in 0..100 and the two add up to 100, or to 101 exactly when the true share is an exact half |
| FeedDisplay.FormatTimestamp | app/components/Feed.tsx:53-64 | minutes under an hour, hours under a day, days otherwise, each the floor of the elapsed time by its unit |
| FeedDisplay.VoteNounSingular | app/components/Feed.tsx:131 | the singular "vote" is used exactly when the story has one vote in all |
| FeedDisplay.SingleVoteBar | app/components/Feed.tsx:89-131 | when the label is the singular "vote" and no count is negative, the percentages are 100 and 0 one way or the other |
| JsString.Trim | app/components/VerifyForm.tsx:23 | `trim` yields a contiguous middle of the input with only white space before and after it; that middle is empty exactly when the input is all white space, and otherwise neither starts nor ends with white space |
| JsString.TrimIdempotent | app/components/VerifyForm.tsx:29-30 | trimming a trimmed string changes nothing |
| JsString.Slice | components/WalletConnect.js:54 | `slice` resolves negative indices from the end, clamps both to the length, and is empty when the end does not follow the start |
| VerifyForm.HandleSubmit | app/components/VerifyForm.tsx:20-43 | rejected with "Please fill in all fields" exactly when the title or the link is all white space, with the fields kept; otherwise the story passed on has the trimmed fields, the placeholder submitter and status pending, and both fields are cleared |
| VerifyForm.ClearedFormRejected | app/components/VerifyForm.tsx:41-42 | the cleared form is rejected, so each filled-in form hands on one story |
| VerifyForm.ResubmitSameStory | app/components/VerifyForm.tsx:28-30 | typing an accepted story's fields back in yields the same story |
| SubmitPage.HandleSubmit | app/submit/page.tsx:19-37 | rejected exactly when the title or the link is all white space, with the fields kept; otherwise both fields are cleared and nothing is built |
| SubmitPage.SameAsVerifyForm | app/submit/page.tsx:22-32 | the page accepts exactly what the landing-page form accepts, with the same message and the same resulting fields |
| SubmitClaim.HandleSubmit | app/submit/page.js:42-73 | the wallet check comes first, then the summary check; a sent payload carries the trimmed summary, the hash or null, and the account; loading ends false; the failure message appears iff the service fails |
| SubmitClaim.ErrorShownUnlessSent | app/submit/page.js:44-69 | after a submit the error is empty exactly when the claim was sent and accepted, and is otherwise one of the three messages |
| SubmitClaim.RetrySendsSamePayload | app/submit/page.js:56-71 | a retry after a failure sends the same payload and leaves the page not loading and without an error |
| WalletConnect.FormatAddress | components/WalletConnect.js:52-55 | an absent or empty address gives ""; otherwise the result is the first up-to-6 characters, "..." and the last up-to-4 characters |
| WalletConnect.FormatLongAddress | components/WalletConnect.js:54 | an address of 10 or more characters shortens to 13 characters keeping its first 6 and last 4 |
| WalletConnect.SizeClass | components/WalletConnect.js:58 | the large classes are chosen exactly when the size is "lg", else the default |
| WalletConnect.WidthClass | components/WalletConnect.js:57 | "w-full" is chosen exactly when full width is asked for, else "" |
| Navbar.FormatAddress | components/Navbar.js:11-14 | an absent or empty address gives ""; an address of 10 or more characters gives 13 characters |
| Navbar.SameAsWalletConnect | components/Navbar.js:11-14 | the navigation bar's shortener agrees with the wallet button's on every input |
| HowItWorks.NextStep | app/components/HowItWorks.tsx:44-46 | Next moves one step forward or stays, stays exactly from the last step on, and keeps the index on a step |
| HowItWorks.PreviousStep | app/components/HowItWorks.tsx:48-50 | Previous moves one step back or stays, stays exactly at 0 and below, and keeps the index on a step |
| HowItWorks.RunStaysInRange | app/components/HowItWorks.tsx:42-54 | any sequence of Next, Previous and dot clicks (`GoToStep`) keeps the index in 0..4 |
| HowItWorks.StartsInRange | app/components/HowItWorks.tsx:42 | from the initial step 0, every reachable index is a step |
| HowItWorks.NextPreviousInverse | app/components/HowItWorks.tsx:44-50 | on a step, Previous undoes Next below the last step and Next undoes Previous above the first |
| HowItWorks.DisabledIsNoOp | app/components/HowItWorks.tsx:121-140 | a button is disabled exactly when clicking it would leave the step unchanged |

## Findings

| source | as written | input that shows it | evidently intended | confidence | as-written member | corrected member |
|---|---|---|---|---|---|---|
| app/admin/page.tsx:84-192 | "Distribute Rewards" checks "tallied" against the dashboard's cached list, and the list is refreshed without `await` after the payout | a tallied story with the admin's row present, clicked a second time before the list refresh resolves (or after it fails) | a story's fee is distributed at most once | medium, not executed | AdminSettlement.StaleListPaysTwice | AdminSettlement.DistributeOnce |

## Left out

- Supabase client construction and query plumbing. The store is in memory, and no query failure is modelled other than a missing row.
- The read-modify-write races in the awaited distribution loops. Distribution is one sequential, atomic step.
- Errors thrown mid-way through a distribution. They would leave a partial update, which the atomic step cannot show.
- The ordering of the dashboard's story list, the admin-only redirect and the processing spinner.
- The `finalized_at` column and the unused submitter argument of the platform payout in the alternative rules.
- StoryFinalization.AwardReputationAt: does not model a missing reputation value counting as 0, because reputation is always an integer here.
- The alternative rules' per-row error swallowing. Each insert and update is taken to succeed.
- IEEE floating point: `parseFloat`, `toFixed` and float rounding. Money and percentages are exact reals.
- Date parsing and `toLocaleString`. Timestamps are already milliseconds.
- The rendered strings "Xm ago", "Xh ago" and "Xd ago". FeedDisplay.FormatTimestamp returns the bucket and the number.
- Toasts, router navigation, `setTimeout`, `console` output and the React state batching of the forms.
- The mock service's one-second delay and generated id. Whether the claim service fails is a parameter.
- The `Math.random` mock file hash.
- On-chain contract calls, and wallet connection and chain switching.
- Page markup and the other near-duplicate pages, which hold no logic beyond what is modelled.
- The claim page's vote toggle (app/claim/[id]/page.js:92-118), which deletes a wallet's earlier vote before saving a new one. It works on the mock data service and never reaches the store. The store-backed pages have no vote cap, one-vote guard or voting-window check to model.
- JsString.Slice: counts Unicode scalar values, not JavaScript's UTF-16 code units, so it differs from `slice` on text outside the Basic Multilingual Plane; wallet addresses are ASCII, where the two agree.
- WalletConnect.SizeClass and WalletConnect.WidthClass: the button computes these classes but its markup never uses them, so they change nothing on screen.
- AdminSettlement.DistributeOnce and AdminSettlement.ActionsAdvanceStatus: the handlers check a cached list whose refresh (app/admin/page.tsx:75, 187) is not awaited, while these lemmas read the stored story; the stale-list double payout is shown by `DistributeCached` and `StaleListPaysTwice` instead.

=== FILE: admin_settlement.dfy ===
/**
 The live settlement engine of the admin dashboard: deciding when a story's
 vote may be closed, tallying the binary verdict, and distributing the
 submission fee and reputation once the story is tallied.

 Every database round trip becomes a pure transition of `Ledger.Store`. The
 distribution loop is modelled sequentially, vote by vote in store order,
 as one atomic step.
 */
module AdminSettlement {
  import opened Optional
  import opened Ledger

  /** Reputation gained per correct vote. */
  const CORRECT_VOTE_AWARD: int := 2
  /** Reputation lost per incorrect vote, when the voter holds enough. */
  const INCORRECT_VOTE_PENALTY: int := 1
  /** An incorrect voter is only penalised while holding at least this much. */
  const PENALTY_THRESHOLD: int := 5
  /** Shares of the submission fee. */
  const VOTERS_SHARE: real := 0.6
  const ADMIN_SHARE: real := 0.4

  datatype Error =
    | StoryNotFound        // tallying an id absent from the dashboard's list
    | MustBeTalliedFirst   // "Story must be tallied first"

  /** A rejected step leaves the store exactly as it was. */
  datatype Outcome = Done(store: Store) | Rejected(error: Error)

  /** The dashboard offers "Tally Votes" only once the voting window has
      passed (strictly) and the story is still being voted on. */
  predicate CanTally(story: Story, now: int)
  {
    now > story.votingEndsAt && story.status == Voting
  }

  /** The dashboard's list holds only the stories still being voted on or
      already tallied; a distributed story drops out of it. */
  predicate Listed(story: Story)
  {
    story.status == Voting || story.status == Tallied
  }

  /** Tallying: the handler looks the id up in the dashboard's list, so an
      unknown id or a distributed story is not found. Otherwise the verdict
      is "true" exactly when the true votes strictly outnumber the false
      ones, so ties (0-0 included) are "false". The handler does not check
      `CanTally` itself; the dashboard only offers it then (see
      `CloseVoting`). */
  function Tally(st: Store, storyId: string): (r: Outcome)
    ensures storyId != st.story.id || !Listed(st.story) <==> r == Rejected(StoryNotFound)
    ensures r.Done? ==>
      && r.store.story.status == Tallied
      && r.store.story.finalResult.Some?
      && (r.store.story.finalResult.value <==> st.story.votesTrue > st.story.votesFalse)
      && r.store.story == st.story.(status := Tallied, finalResult := r.store.story.finalResult)
      && r.store.users == st.users
      && r.store.votes == st.votes
      && r.store.transactions == st.transactions
  {
    if st.story.id != storyId || !Listed(st.story) then Rejected(StoryNotFound)
    else
      var finalResult := st.story.votesTrue > st.story.votesFalse;
      Done(st.(story := st.story.(status := Tallied, finalResult := Some(finalResult))))
  }

  /** The "Tally Votes" button: present only when `CanTally` holds. */
  function CloseVoting(st: Store, storyId: string, now: int): (r: Option<Outcome>)
    ensures r.Some? <==> CanTally(st.story, now)
    ensures r.Some? && storyId == st.story.id ==>
      r.value.Done? && r.value.store.story.status == Tallied
  {
    if CanTally(st.story, now) then Some(Tally(st, storyId)) else None
  }

  /** Once tallyable, a story stays tallyable as the clock moves on, and it is
      never tallyable again after a tally. */
  lemma CanTallyWindow(st: Store, now: int, later: int)
    requires CanTally(st.story, now) && now <= later
    ensures CanTally(st.story, later)
    ensures forall id :: Tally(st, id).Done? ==> !CanTally(Tally(st, id).store.story, later)
  {
  }

  /** Share of the voters' pool paid per correct vote. */
  function RewardPerVoter(pool: real, correctCount: nat): (r: real)
    ensures correctCount > 0 ==> Times(correctCount, r) == pool
    ensures correctCount == 0 ==> r == 0.0
  {
    if correctCount > 0 then
      var r := pool / correctCount as real;
      TimesIsProduct(correctCount, r);
      r
    else 0.0
  }

  /** Reputation after `n` successive incorrect-vote penalties, each applied
      only while the reputation is at least the threshold. */
  function ReputationAfterPenalties(rep: int, n: nat): (r: int)
    ensures r <= rep
    ensures rep < PENALTY_THRESHOLD ==> r == rep
    ensures rep >= PENALTY_THRESHOLD ==> r >= PENALTY_THRESHOLD - INCORRECT_VOTE_PENALTY
    ensures rep >= 0 ==> r >= 0
    ensures n == 0 ==> r == rep
  {
    if rep < PENALTY_THRESHOLD then rep
    else if rep - n > PENALTY_THRESHOLD - 1 then rep - n
    else PENALTY_THRESHOLD - 1
  }

  /** One correct vote: +2 reputation and the per-voter reward, which is the
      reference settlement of a single correct vote and no admin credit. */
  function Rewarded(u: User, reward: real): (r: User)
    ensures r == Settled(u, 1, 0, reward, 0.0)
  {
    assert Times(1, reward) == reward + Times(0, reward);
    u.(reputation := u.reputation + CORRECT_VOTE_AWARD, earnings := u.earnings + reward)
  }

  /** One incorrect vote: -1 reputation, only if the voter holds at least 5. */
  function Penalized(u: User): (r: User)
    ensures r == u.(reputation := ReputationAfterPenalties(u.reputation, 1))
  {
    if u.reputation >= PENALTY_THRESHOLD then u.(reputation := u.reputation - INCORRECT_VOTE_PENALTY) else u
  }

  /** The loop over correct voters, applied to the users table: a voter whose
      row is missing is skipped, and no row is created or removed. */
  function CreditCorrect(users: map<string, User>, correct: seq<Vote>, reward: real): (r: map<string, User>)
    ensures r.Keys == users.Keys
  {
    if correct == [] then users
    else
      var id := correct[0].userId;
      var next := if id in users then users[id := Rewarded(users[id], reward)] else users;
      CreditCorrect(next, correct[1..], reward)
  }

  /** Each user gains +2 reputation and one reward per correct vote of theirs. */
  lemma {:induction false} CreditCorrectAt(users: map<string, User>, correct: seq<Vote>, reward: real, id: string)
    requires id in users
    ensures CreditCorrect(users, correct, reward)[id] == users[id].(
      reputation := users[id].reputation + CORRECT_VOTE_AWARD * CountBy(correct, id),
      earnings := users[id].earnings + Times(CountBy(correct, id), reward))
  {
    if correct != [] {
      var v := correct[0].userId;
      var next := if v in users then users[v := Rewarded(users[v], reward)] else users;
      CreditCorrectAt(next, correct[1..], reward, id);
    }
  }

  /** The loop over incorrect voters, applied to the users table. */
  function PenalizeIncorrect(users: map<string, User>, incorrect: seq<Vote>): (r: map<string, User>)
    ensures r.Keys == users.Keys
  {
    if incorrect == [] then users
    else
      var id := incorrect[0].userId;
      var next := if id in users then users[id := Penalized(users[id])] else users;
      PenalizeIncorrect(next, incorrect[1..])
  }

  /** Successive penalties compose into the closed form. */
  lemma PenaltyStep(rep: int, n: nat)
    ensures ReputationAfterPenalties(ReputationAfterPenalties(rep, 1), n) == ReputationAfterPenalties(rep, n + 1)
  {
  }

  /** An incorrect voter's reputation follows `ReputationAfterPenalties`, one
      penalty per incorrect vote; nothing else about the user changes. */
  lemma {:induction false} PenalizeIncorrectAt(users: map<string, User>, incorrect: seq<Vote>, id: string)
    requires id in users
    ensures PenalizeIncorrect(users, incorrect)[id]
      == users[id].(reputation := ReputationAfterPenalties(users[id].reputation, CountBy(incorrect, id)))
  {
    if incorrect != [] {
      var v := incorrect[0].userId;
      var next := if v in users then users[v := Penalized(users[v])] else users;
      PenalizeIncorrectAt(next, incorrect[1..], id);
      if v == id {
        PenaltyStep(users[id].reputation, CountBy(incorrect[1..], id));
      }
    }
  }

  /** The `vote_reward` rows the loop over correct voters appends: one per
      correct vote whose voter has a row. */
  function RewardTransactions(correct: seq<Vote>, known: set<string>, storyId: string, reward: real): (r: seq<Transaction>)
    ensures |r| == CountKnown(correct, known)
    ensures forall t :: t in r ==>
      t.kind == VoteReward && t.amount == reward && t.storyId == Some(storyId) && t.userId in known
  {
    if correct == [] then []
    else
      (if correct[0].userId in known
       then [Transaction(correct[0].userId, Some(storyId), reward, VoteReward)]
       else [])
      + RewardTransactions(correct[1..], known, storyId, reward)
  }

  /** The admin's credit: found only when the caller id has a row. */
  function AdminFound(users: map<string, User>, adminId: Option<string>): bool
  {
    adminId.Some? && adminId.value in users
  }

  /** The `admin_fee` row: at most one, written exactly when the caller has
      a row, and then for the caller, the story and the whole admin fee. */
  function AdminTransactions(users: map<string, User>, adminId: Option<string>, storyId: string, adminFee: real): (r: seq<Transaction>)
    ensures |r| <= 1
    ensures |r| == 1 <==> AdminFound(users, adminId)
    ensures forall t :: t in r ==>
      && t.kind == AdminFee && t.amount == adminFee && t.storyId == Some(storyId)
      && adminId == Some(t.userId) && t.userId in users
  {
    if AdminFound(users, adminId) then [Transaction(adminId.value, Some(storyId), adminFee, AdminFee)] else []
  }

  /** The admin fee credited to user `id`: all of it to the caller, nothing
      to anyone else. */
  function AdminCredit(adminId: Option<string>, id: string, adminFee: real): real
  {
    if adminId == Some(id) then adminFee else 0.0
  }

  function CreditAdmin(users: map<string, User>, adminId: Option<string>, adminFee: real): (r: map<string, User>)
    ensures r.Keys == users.Keys
    ensures forall id :: id in users ==>
      r[id] == users[id].(earnings := users[id].earnings + AdminCredit(adminId, id, adminFee))
  {
    if AdminFound(users, adminId) then
      users[adminId.value := users[adminId.value].(earnings := users[adminId.value].earnings + adminFee)]
    else users
  }

  /** The value a vote must carry to count as correct: `final_result === "true"`. */
  function CorrectDecision(story: Story): bool
  {
    story.finalResult == Some(true)
  }

  /** The votes of the story that match the verdict, and those that do not. */
  function CorrectVotes(st: Store, storyId: string): seq<Vote>
  {
    WithDecision(VotesFor(st.votes, storyId), CorrectDecision(st.story))
  }

  function IncorrectVotes(st: Store, storyId: string): seq<Vote>
  {
    WithDecision(VotesFor(st.votes, storyId), !CorrectDecision(st.story))
  }

  function VotersPool(st: Store): real
  {
    st.story.submissionFee * VOTERS_SHARE
  }

  function AdminFeeOf(st: Store): real
  {
    st.story.submissionFee * ADMIN_SHARE
  }

  function Reward(st: Store, storyId: string): real
  {
    RewardPerVoter(VotersPool(st), |CorrectVotes(st, storyId)|)
  }

  /** The transactions one distribution appends, in the order written. */
  function DistributionTransactions(st: Store, storyId: string, adminId: Option<string>): seq<Transaction>
  {
    RewardTransactions(CorrectVotes(st, storyId), st.users.Keys, storyId, Reward(st, storyId))
      + AdminTransactions(st.users, adminId, storyId, AdminFeeOf(st))
  }

  /** The guard of "Distribute Rewards": the story is the one asked for and
      has been tallied. */
  predicate Distributable(st: Store, storyId: string)
  {
    st.story.id == storyId && st.story.status == Tallied
  }

  /** "Distribute Rewards" for story `storyId`, called by admin `adminId`. */
  function Distribute(st: Store, storyId: string, adminId: Option<string>): (r: Outcome)
    ensures r.Rejected? <==> !Distributable(st, storyId)
    ensures r.Rejected? ==> r.error == MustBeTalliedFirst
    ensures r.Done? ==>
      && r.store.story == st.story.(status := Distributed)
      && r.store.votes == st.votes
      && r.store.users.Keys == st.users.Keys
      && r.store.transactions == st.transactions + DistributionTransactions(st, storyId, adminId)
  {
    if !Distributable(st, storyId) then Rejected(MustBeTalliedFirst)
    else
      var reward := Reward(st, storyId);
      var afterCorrect := CreditCorrect(st.users, CorrectVotes(st, storyId), reward);
      var afterIncorrect := PenalizeIncorrect(afterCorrect, IncorrectVotes(st, storyId));
      var afterAdmin := CreditAdmin(afterIncorrect, adminId, AdminFeeOf(st));
      Done(Store(
        afterAdmin,
        st.votes,
        st.transactions + DistributionTransactions(st, storyId, adminId),
        st.story.(status := Distributed)))
  }

  // ----- Properties of one distribution -----

  /** Every vote on the story lands in exactly one of the two groups, and it
      is correct exactly when its decision equals `final_result === "true"`. */
  lemma {:induction false} VotesPartition(votes: seq<Vote>, decision: bool)
    ensures |WithDecision(votes, decision)| + |WithDecision(votes, !decision)| == |votes|
    ensures forall v :: v in votes ==>
      (v in WithDecision(votes, decision) <==> v.vote == decision)
      && (v in WithDecision(votes, !decision) <==> v.vote != decision)
  {
    if votes != [] {
      VotesPartition(votes[1..], decision);
    }
  }

  /** A voter's `vote_reward` rows add up to one reward per correct vote of
      theirs, and there is one such row per such vote. */
  lemma RewardTransactionsFor(correct: seq<Vote>, known: set<string>, storyId: string, reward: real, id: string)
    requires id in known
    ensures SumFor(RewardTransactions(correct, known, storyId, reward), id) == Times(CountBy(correct, id), reward)
    ensures CountFor(RewardTransactions(correct, known, storyId, reward), id, VoteReward) == CountBy(correct, id)
    ensures CountFor(RewardTransactions(correct, known, storyId, reward), id, AdminFee) == 0
  {
    RewardSumFor(correct, known, storyId, reward, id);
    RewardCountFor(correct, known, storyId, reward, id);
  }

  /** The first `vote_reward` row, if the first voter has a user row. */
  function RewardHead(correct: seq<Vote>, known: set<string>, storyId: string, reward: real): (r: seq<Transaction>)
    requires correct != []
    ensures RewardTransactions(correct, known, storyId, reward) == r + RewardTransactions(correct[1..], known, storyId, reward)
  {
    if correct[0].userId in known
    then [Transaction(correct[0].userId, Some(storyId), reward, VoteReward)] else []
  }

  lemma {:induction false} RewardSumFor(correct: seq<Vote>, known: set<string>, storyId: string, reward: real, id: string)
    requires id in known
    ensures SumFor(RewardTransactions(correct, known, storyId, reward), id) == Times(CountBy(correct, id), reward)
  {
    if correct != [] {
      var head := RewardHead(correct, known, storyId, reward);
      var rest := RewardTransactions(correct[1..], known, storyId, reward);
      SumForAppend(head, rest, id);
      RewardSumFor(correct[1..], known, storyId, reward, id);
      var n := CountBy(correct[1..], id);
      if correct[0].userId == id {
        assert SumFor(head, id) == reward;
        assert CountBy(correct, id) == n + 1;
        assert Times(n + 1, reward) == reward + Times(n, reward);
      } else {
        assert SumFor(head, id) == 0.0;
        assert CountBy(correct, id) == n;
      }
    }
  }

  lemma {:induction false} RewardCountFor(correct: seq<Vote>, known: set<string>, storyId: string, reward: real, id: string)
    requires id in known
    ensures CountFor(RewardTransactions(correct, known, storyId, reward), id, VoteReward) == CountBy(correct, id)
    ensures CountFor(RewardTransactions(correct, known, storyId, reward), id, AdminFee) == 0
  {
    if correct != [] {
      var head := RewardHead(correct, known, storyId, reward);
      CountForAppend(head, RewardTransactions(correct[1..], known, storyId, reward), id, VoteReward);
      CountForAppend(head, RewardTransactions(correct[1..], known, storyId, reward), id, AdminFee);
      RewardCountFor(correct[1..], known, storyId, reward, id);
    }
  }

  /** The amounts of the `vote_reward` rows: one reward per correct vote whose
      voter has a row. */
  lemma {:induction false} RewardTransactionsTotal(correct: seq<Vote>, known: set<string>, storyId: string, reward: real)
    ensures SumAmounts(RewardTransactions(correct, known, storyId, reward)) == Times(CountKnown(correct, known), reward)
  {
    if correct != [] {
      var head := if correct[0].userId in known
        then [Transaction(correct[0].userId, Some(storyId), reward, VoteReward)] else [];
      assert RewardTransactions(correct, known, storyId, reward) == head + RewardTransactions(correct[1..], known, storyId, reward);
      SumAmountsAppend(head, RewardTransactions(correct[1..], known, storyId, reward));
      RewardTransactionsTotal(correct[1..], known, storyId, reward);
    }
  }

  /** A user row after `c` correct and `i` incorrect votes on one story and
      an admin credit of `adminCredit`: the reference the distribution is
      checked against. */
  function Settled(u: User, c: nat, i: nat, reward: real, adminCredit: real): User
  {
    u.(reputation := ReputationAfterPenalties(u.reputation + CORRECT_VOTE_AWARD * c, i),
       earnings := u.earnings + Times(c, reward) + adminCredit)
  }

  /** What a distribution does to one user row: +2 reputation and one reward
      per correct vote, then one guarded penalty per incorrect vote, then the
      admin fee if this user is the calling admin; no other field changes. */
  lemma DistributeUser(st: Store, storyId: string, adminId: Option<string>, id: string)
    requires Distributable(st, storyId)
    requires id in st.users
    ensures Distribute(st, storyId, adminId).store.users[id] == Settled(
      st.users[id],
      CountBy(CorrectVotes(st, storyId), id),
      CountBy(IncorrectVotes(st, storyId), id),
      Reward(st, storyId),
      AdminCredit(adminId, id, AdminFeeOf(st)))
  {
    var reward := Reward(st, storyId);
    assert Distribute(st, storyId, adminId).store.users
      == CreditAdmin(PenalizeIncorrect(CreditCorrect(st.users, CorrectVotes(st, storyId), reward), IncorrectVotes(st, storyId)), adminId, AdminFeeOf(st));
    SettleRow(st.users, CorrectVotes(st, storyId), IncorrectVotes(st, storyId), reward, adminId, AdminFeeOf(st), id);
  }

  /** The three phases of a distribution, applied to one user row. */
  lemma SettleRow(users: map<string, User>, correct: seq<Vote>, incorrect: seq<Vote>, reward: real,
                  adminId: Option<string>, adminFee: real, id: string)
    requires id in users
    ensures CreditAdmin(PenalizeIncorrect(CreditCorrect(users, correct, reward), incorrect), adminId, adminFee)[id]
      == Settled(users[id], CountBy(correct, id), CountBy(incorrect, id), reward, AdminCredit(adminId, id, adminFee))
  {
    var afterCorrect := CreditCorrect(users, correct, reward);
    CreditCorrectAt(users, correct, reward, id);
    PenalizeIncorrectAt(afterCorrect, incorrect, id);
  }

  /** A voter with a row who cast a single vote on the story: a correct one
      earns exactly +2 reputation and one reward; an incorrect one loses one
      point only when holding at least 5, so the penalty never takes a
      reputation below 4 nor a non-negative one below zero. */
  lemma SingleVoteEffect(st: Store, storyId: string, adminId: Option<string>, id: string)
    requires Distributable(st, storyId)
    requires id in st.users && adminId != Some(id)
    requires CountBy(VotesFor(st.votes, storyId), id) == 1
    ensures var u := st.users[id];
      var u' := Distribute(st, storyId, adminId).store.users[id];
      && (CountBy(CorrectVotes(st, storyId), id) == 1 ==>
            u'.reputation == u.reputation + 2 && u'.earnings == u.earnings + Reward(st, storyId))
      && (CountBy(IncorrectVotes(st, storyId), id) == 1 ==>
            u'.earnings == u.earnings
            && (u.reputation >= 5 ==> u'.reputation == u.reputation - 1)
            && (u.reputation < 5 ==> u'.reputation == u.reputation)
            && (u.reputation >= 5 ==> u'.reputation >= 4)
            && (u.reputation >= 0 ==> u'.reputation >= 0))
  {
    var u := st.users[id];
    var c := CountBy(CorrectVotes(st, storyId), id);
    var i := CountBy(IncorrectVotes(st, storyId), id);
    CountBySplit(VotesFor(st.votes, storyId), CorrectDecision(st.story), id);
    DistributeUser(st, storyId, adminId, id);
    assert AdminCredit(adminId, id, AdminFeeOf(st)) == 0.0;
    var u' := Distribute(st, storyId, adminId).store.users[id];
    assert u' == Settled(u, c, i, Reward(st, storyId), 0.0);
    SettledSingleVote(u, c, i, Reward(st, storyId));
  }

  /** The reference row for exactly one vote and no admin credit. */
  lemma SettledSingleVote(u: User, c: nat, i: nat, reward: real)
    requires c + i == 1
    ensures c == 1 ==> Settled(u, c, i, reward, 0.0) == u.(reputation := u.reputation + 2, earnings := u.earnings + reward)
    ensures i == 1 ==> Settled(u, c, i, reward, 0.0) == u.(reputation := ReputationAfterPenalties(u.reputation, 1))
  {
    if c == 1 {
      assert Times(c, reward) == reward;
    } else {
      assert CORRECT_VOTE_AWARD * c == 0;
      assert Times(c, reward) == 0.0;
    }
  }

  /** A voter's votes split between the two groups. */
  lemma {:induction false} CountBySplit(votes: seq<Vote>, decision: bool, id: string)
    ensures CountBy(WithDecision(votes, decision), id) + CountBy(WithDecision(votes, !decision), id) == CountBy(votes, id)
  {
    if votes != [] {
      CountBySplit(votes[1..], decision, id);
      var d := votes[0].vote;
      CountByAppend([votes[0]], WithDecision(votes[1..], d), id);
      assert WithDecision(votes, d) == [votes[0]] + WithDecision(votes[1..], d);
      assert WithDecision(votes, !d) == WithDecision(votes[1..], !d);
    }
  }

  lemma {:induction false} CountByAppend(a: seq<Vote>, b: seq<Vote>, id: string)
    ensures CountBy(a + b, id) == CountBy(a, id) + CountBy(b, id)
  {
    if a == [] {
      assert a + b == b;
    } else {
      assert (a + b)[1..] == a[1..] + b;
      CountByAppend(a[1..], b, id);
    }
  }

  /** Earnings and the transaction log move together: every user's earnings
      grow by exactly the sum of the rows appended for that user. */
  lemma DistributeBalances(st: Store, storyId: string, adminId: Option<string>, id: string)
    requires Distributable(st, storyId)
    requires id in st.users
    ensures Distribute(st, storyId, adminId).store.users[id].earnings
      == st.users[id].earnings + SumFor(DistributionTransactions(st, storyId, adminId), id)
  {
    var reward := Reward(st, storyId);
    var correct := CorrectVotes(st, storyId);
    var rewards := RewardTransactions(correct, st.users.Keys, storyId, reward);
    var admin := AdminTransactions(st.users, adminId, storyId, AdminFeeOf(st));
    DistributeUser(st, storyId, adminId, id);
    RewardTransactionsFor(correct, st.users.Keys, storyId, reward, id);
    SumForAppend(rewards, admin, id);
  }

  /** Each correct voter with a row receives one `vote_reward` row per correct
      vote, and the calling admin, if found, exactly one `admin_fee` row. */
  lemma DistributeRows(st: Store, storyId: string, adminId: Option<string>, id: string)
    requires Distributable(st, storyId)
    requires id in st.users
    ensures CountFor(DistributionTransactions(st, storyId, adminId), id, VoteReward) == CountBy(CorrectVotes(st, storyId), id)
    ensures CountFor(DistributionTransactions(st, storyId, adminId), id, AdminFee) == (if adminId == Some(id) then 1 else 0)
    ensures forall t :: t in DistributionTransactions(st, storyId, adminId) ==> t.storyId == Some(storyId)
  {
    var reward := Reward(st, storyId);
    var correct := CorrectVotes(st, storyId);
    var rewards := RewardTransactions(correct, st.users.Keys, storyId, reward);
    var admin := AdminTransactions(st.users, adminId, storyId, AdminFeeOf(st));
    RewardTransactionsFor(correct, st.users.Keys, storyId, reward, id);
    CountForAppend(rewards, admin, id, VoteReward);
    CountForAppend(rewards, admin, id, AdminFee);
  }

  /** The money a distribution moves: one reward per correct vote whose voter
      has a row, plus the admin fee when the caller has a row. */
  lemma DistributeTotal(st: Store, storyId: string, adminId: Option<string>)
    requires Distributable(st, storyId)
    ensures SumAmounts(DistributionTransactions(st, storyId, adminId))
      == Times(CountKnown(CorrectVotes(st, storyId), st.users.Keys), Reward(st, storyId))
         + (if AdminFound(st.users, adminId) then AdminFeeOf(st) else 0.0)
  {
    var reward := Reward(st, storyId);
    var correct := CorrectVotes(st, storyId);
    var rewards := RewardTransactions(correct, st.users.Keys, storyId, reward);
    var admin := AdminTransactions(st.users, adminId, storyId, AdminFeeOf(st));
    RewardTransactionsTotal(correct, st.users.Keys, storyId, reward);
    SumAmountsAppend(rewards, admin);
  }

  /** With at least one correct voter, every correct voter and the admin
      having rows, the fee is paid out exactly: k * reward + admin fee = fee. */
  lemma DistributeConservesFee(st: Store, storyId: string, adminId: Option<string>)
    requires Distributable(st, storyId)
    requires |CorrectVotes(st, storyId)| > 0
    requires forall v :: v in CorrectVotes(st, storyId) ==> v.userId in st.users
    requires AdminFound(st.users, adminId)
    ensures SumAmounts(DistributionTransactions(st, storyId, adminId)) == st.story.submissionFee
  {
    var k := |CorrectVotes(st, storyId)|;
    var reward := Reward(st, storyId);
    DistributeTotal(st, storyId, adminId);
    assert CountKnown(CorrectVotes(st, storyId), st.users.Keys) == k;
    assert Times(k, reward) == VotersPool(st);
    assert VotersPool(st) + AdminFeeOf(st) == st.story.submissionFee;
  }

  /** With no correct voter the voters' pool is credited to no one: only the
      admin fee (40%) leaves the story, and no `vote_reward` row is written. */
  lemma DistributeForfeitsPool(st: Store, storyId: string, adminId: Option<string>)
    requires Distributable(st, storyId)
    requires |CorrectVotes(st, storyId)| == 0
    ensures Reward(st, storyId) == 0.0
    ensures SumAmounts(DistributionTransactions(st, storyId, adminId))
      == (if AdminFound(st.users, adminId) then st.story.submissionFee * ADMIN_SHARE else 0.0)
    ensures forall t :: t in DistributionTransactions(st, storyId, adminId) ==> t.kind == AdminFee
  {
    DistributeTotal(st, storyId, adminId);
  }

  /** Money and reputation move at most once per story when the guards read
      the stored story (the dashboard list refreshed): after a distribution
      the story can be neither distributed again, nor offered for tallying,
      nor tallied back into a distributable state. */
  lemma DistributeOnce(st: Store, storyId: string, adminId: Option<string>, again: Option<string>, now: int, id: string)
    requires Distributable(st, storyId)
    ensures Distribute(Distribute(st, storyId, adminId).store, storyId, again) == Rejected(MustBeTalliedFirst)
    ensures CloseVoting(Distribute(st, storyId, adminId).store, storyId, now).None?
    ensures Tally(Distribute(st, storyId, adminId).store, id) == Rejected(StoryNotFound)
  {
  }

  /** Position of a status in the forward-only lifecycle. */
  function Rank(s: Status): nat
  {
    match s
    case Voting => 0
    case Tallied => 1
    case Distributed => 2
  }

  /** The two dashboard actions each move the story exactly one step forward:
      voting to tallied, tallied to distributed. */
  lemma ActionsAdvanceStatus(st: Store, storyId: string, adminId: Option<string>, now: int)
    ensures var c := CloseVoting(st, storyId, now);
      c.Some? && c.value.Done? ==> Rank(c.value.store.story.status) == Rank(st.story.status) + 1
    ensures var d := Distribute(st, storyId, adminId);
      d.Done? ==> Rank(d.store.story.status) == Rank(st.story.status) + 1
  {
  }

  // ----- The handler as written: guards on the dashboard's cached list -----

  /** "Distribute Rewards" as the handler runs it: the guard, the verdict and
      the fee are read from `cached`, the dashboard's copy of the story, and
      the loops act on the store. The final update sets only the status of
      the stored row with id `storyId`, keeping its other columns.
      `Distribute` is this step with a cache equal to the stored story. */
  function DistributeCached(cached: Story, st: Store, storyId: string, adminId: Option<string>): (r: Outcome)
    ensures cached == st.story ==> r == Distribute(st, storyId, adminId)
    ensures r.Rejected? <==> !(cached.id == storyId && cached.status == Tallied)
    ensures r.Rejected? ==> r.error == MustBeTalliedFirst
    ensures r.Done? ==>
      && r.store.story == (if st.story.id == storyId then st.story.(status := Distributed) else st.story)
      && r.store.votes == st.votes
      && r.store.users.Keys == st.users.Keys
      && r.store.transactions == st.transactions + DistributionTransactions(st.(story := cached), storyId, adminId)
  {
    match Distribute(st.(story := cached), storyId, adminId)
    case Rejected(e) => Rejected(e)
    case Done(s) =>
      Done(s.(story := if st.story.id == storyId then st.story.(status := Distributed) else st.story))
  }

  /** While the list still shows the story as tallied after a distribution
      (its refresh is not awaited), a second click passes the guard and
      appends the whole set of distribution rows again, leaving the status
      where it was. */
  lemma StaleListPaysTwice(st: Store, storyId: string, adminId: Option<string>)
    requires Distributable(st, storyId)
    ensures var once := Distribute(st, storyId, adminId).store;
      var twice := DistributeCached(st.story, once, storyId, adminId);
      var rows := DistributionTransactions(st, storyId, adminId);
      && twice.Done?
      && twice.store.transactions == st.transactions + rows + rows
      && twice.store.story.status == once.story.status == Distributed
      && (AdminFound(st.users, adminId) ==> |twice.store.transactions| > |once.transactions|)
  {
    var once := Distribute(st, storyId, adminId).store;
    DistributionRowsDepend(once.(story := st.story), st, storyId, adminId);
  }

  /** The distribution rows depend on the users table only through its key
      set. */
  lemma DistributionRowsDepend(a: Store, b: Store, storyId: string, adminId: Option<string>)
    requires a.votes == b.votes && a.story == b.story && a.users.Keys == b.users.Keys
    ensures DistributionTransactions(a, storyId, adminId) == DistributionTransactions(b, storyId, adminId)
  {
    assert CorrectVotes(a, storyId) == CorrectVotes(b, storyId);
    assert Reward(a, storyId) == Reward(b, storyId);
    assert AdminFound(a.users, adminId) == AdminFound(b.users, adminId);
    assert AdminTransactions(a.users, adminId, storyId, AdminFeeOf(a))
      == AdminTransactions(b.users, adminId, storyId, AdminFeeOf(b));
  }
}

=== FILE: clock.dfy ===
/**
 Millisecond lengths of the time units the app counts in.
 */
module Clock {
  const MINUTE_MS: int := 60 * 1000
  const HOUR_MS: int := 60 * MINUTE_MS
  const DAY_MS: int := 24 * HOUR_MS
}

=== FILE: countdown.dfy ===
/**
 The "Voting ends in {h}h {m}m" countdown of the admin dashboard.

 The dashboard subtracts the clock from the story's voting end, floors the
 difference by hours, and floors the JavaScript remainder of the difference
 by minutes, clamping both at zero. JavaScript's `%` truncates toward zero,
 unlike Dafny's Euclidean `%`, so it is written out here as `JsRem`.
 */
module Countdown {
  import opened Clock

  /** JavaScript's `a % b` for a positive divisor: the sign follows `a`,
      and `a` is the remainder plus a whole multiple of `b`. */
  function JsRem(a: int, b: int): (r: int)
    requires b > 0
    ensures a >= 0 ==> 0 <= r < b
    ensures a < 0 ==> -b < r <= 0
    ensures exists q :: a == q * b + r
  {
    if a >= 0 then
      assert a == (a / b) * b + a % b;
      a % b
    else
      assert -a == ((-a) / b) * b + (-a) % b;
      assert a == (-((-a) / b)) * b + -((-a) % b);
      -((-a) % b)
  }

  /** `Math.floor(a / b)` for a positive divisor. Dafny's `/` is Euclidean,
      which for a positive divisor rounds toward negative infinity. */
  function FloorDiv(a: int, b: int): (q: int)
    requires b > 0
    ensures q * b <= a < q * b + b
  {
    a / b
  }

  datatype Remaining = Remaining(hours: int, minutes: int)

  /** Hours and minutes left before `votingEndsAt`, as the dashboard shows them. */
  function TimeLeft(votingEndsAt: int, now: int): (r: Remaining)
    ensures r.hours >= 0
    ensures 0 <= r.minutes <= 59
  {
    var timeLeft := votingEndsAt - now;
    var hoursLeft := if FloorDiv(timeLeft, HOUR_MS) > 0 then FloorDiv(timeLeft, HOUR_MS) else 0;
    var minutesRaw := FloorDiv(JsRem(timeLeft, HOUR_MS), MINUTE_MS);
    var minutesLeft := if minutesRaw > 0 then minutesRaw else 0;
    Remaining(hoursLeft, minutesLeft)
  }

  /** Before the deadline the countdown is the number of whole minutes left,
      split into hours and minutes; after it both parts read zero. */
  lemma TimeLeftIsWholeMinutes(votingEndsAt: int, now: int)
    ensures var r := TimeLeft(votingEndsAt, now);
      && (votingEndsAt >= now ==> r.hours * 60 + r.minutes == (votingEndsAt - now) / MINUTE_MS)
      && (votingEndsAt < now ==> r.hours == 0 && r.minutes == 0)
  {
    var t := votingEndsAt - now;
    var r := TimeLeft(votingEndsAt, now);
    if t >= 0 {
      var h := t / HOUR_MS;
      var rest := t % HOUR_MS;
      var m := rest / MINUTE_MS;
      assert t == HOUR_MS * h + rest;
      assert rest == MINUTE_MS * m + rest % MINUTE_MS;
      assert t == MINUTE_MS * (60 * h + m) + rest % MINUTE_MS;
      assert r.hours == h && r.minutes == m;
    } else {
      assert JsRem(t, HOUR_MS) <= 0;
    }
  }
}

=== FILE: fee_comparison.dfy ===
/**
 The two settlement rule sets side by side, on a story nobody judged
 correctly: the live engine pays out only the admin's 40% and lets the
 voters' 60% go to no one, while the alternative rules hand the whole fee to
 the builder wallet.
 */
module FeeComparison {
  import opened Optional
  import opened Ledger
  import AdminSettlement
  import StoryFinalization

  lemma NoCorrectVoterPayouts(st: Store, adminId: Option<string>)
    requires AdminSettlement.Distributable(st, st.story.id)
    requires AdminSettlement.AdminFound(st.users, adminId)
    requires |AdminSettlement.CorrectVotes(st, st.story.id)| == 0
    ensures SumAmounts(AdminSettlement.DistributionTransactions(st, st.story.id, adminId))
      == st.story.submissionFee * AdminSettlement.ADMIN_SHARE
    ensures SumAmounts(StoryFinalization.PayoutTransactions([], st.story.id)) == StoryFinalization.SUBMISSION_FEE
    ensures st.story.submissionFee == StoryFinalization.SUBMISSION_FEE ==>
      SumAmounts(AdminSettlement.DistributionTransactions(st, st.story.id, adminId)) + 0.6
        == SumAmounts(StoryFinalization.PayoutTransactions([], st.story.id))
  {
    AdminSettlement.DistributeForfeitsPool(st, st.story.id, adminId);
    StoryFinalization.NoCorrectVoterPaysPlatform(st.story.id);
  }
}

=== FILE: feed_display.dfy ===
/**
 Display helpers of the community feed: the status badge text, the vote
 percentages, the "time ago" label and the vote-count noun.

 `Math.round` is taken over exact reals as floor(x + 1/2), so halves round up.
 */
module FeedDisplay {
  import opened Clock
  import opened FeedPage

  /** Badge text: "true" and "false" are verified, anything else is pending. */
  function StatusText(status: string): string
  {
    if status == "true" then "Verified True"
    else if status == "false" then "Verified False"
    else "Pending"
  }

  /** Every status reads as exactly one of the three labels, and only the two
      verdict statuses read as verified. */
  lemma StatusTextCases(status: string)
    ensures StatusText(status) == "Pending" <==> status != "true" && status != "false"
    ensures StatusText(status) == "Verified True" <==> status == "true"
    ensures StatusText(status) == "Verified False" <==> status == "false"
  {
  }

  const GREEN_BADGE := "bg-[#22c55e] hover:bg-[#16a34a] text-white"
  const RED_BADGE := "bg-[#ef4444] hover:bg-[#dc2626] text-white"
  const YELLOW_BADGE := "bg-[#facc15] hover:bg-[#eab308] text-[#111827]"

  /** Badge colour classes, switched on the same status as the text. */
  function StatusColor(status: string): string
  {
    if status == "true" then GREEN_BADGE
    else if status == "false" then RED_BADGE
    else YELLOW_BADGE
  }

  /** The badge colour and the badge text never disagree: green with
      "Verified True", red with "Verified False", yellow with "Pending". */
  lemma BadgeAgrees(status: string)
    ensures StatusColor(status) == GREEN_BADGE <==> StatusText(status) == "Verified True"
    ensures StatusColor(status) == RED_BADGE <==> StatusText(status) == "Verified False"
    ensures StatusColor(status) == YELLOW_BADGE <==> StatusText(status) == "Pending"
  {
  }

  /** `Math.round` on an exact real: the nearest integer, halves going up. */
  function Round(x: real): (r: int)
    ensures r as real - 0.5 <= x < r as real + 0.5
  {
    (x + 0.5).Floor
  }

  datatype Percentages = Percentages(truePercent: int, falsePercent: int)

  /** `calculatePercentage`: zero when nobody voted, else each side's share of
      the total, rounded. */
  function CalculatePercentage(story: FeedStory): (r: Percentages)
    ensures story.votesTrue + story.votesFalse == 0 ==> r == Percentages(0, 0)
    ensures var total := story.votesTrue + story.votesFalse;
      total > 0 ==>
        && r.truePercent == (200 * story.votesTrue + total) / (2 * total)
        && r.falsePercent == (200 * story.votesFalse + total) / (2 * total)
  {
    var total := story.votesTrue + story.votesFalse;
    if total == 0 then Percentages(0, 0)
    else
      PositiveTotalShares(story);
      Percentages(
        Round(story.votesTrue as real / total as real * 100.0),
        Round(story.votesFalse as real / total as real * 100.0))
  }

  /** With a positive total, both rounded shares take the integer form. */
  lemma PositiveTotalShares(story: FeedStory)
    ensures var total := story.votesTrue + story.votesFalse;
      total > 0 ==>
        && Round(story.votesTrue as real / total as real * 100.0) == (200 * story.votesTrue + total) / (2 * total)
        && Round(story.votesFalse as real / total as real * 100.0) == (200 * story.votesFalse + total) / (2 * total)
  {
    var total := story.votesTrue + story.votesFalse;
    if total > 0 {
      RoundedShare(story.votesTrue, total);
      RoundedShare(story.votesFalse, total);
    }
  }

  /** A real whose multiple by a positive `d` lies in [0, d) lies in [0, 1). */
  lemma UnitInterval(z: real, d: real)
    requires d > 0.0 && 0.0 <= z * d < d
    ensures 0.0 <= z < 1.0
  {
  }

  /** Dividing and multiplying back by a non-zero total is exact. */
  lemma Share(part: real, total: real)
    requires total != 0.0
    ensures part / total * total == part
  {
  }

  /** The two shares of a positive total add up to 100 before rounding. */
  lemma SharesSum(a: int, b: int)
    requires a + b != 0
    ensures a as real / (a + b) as real * 100.0 + b as real / (a + b) as real * 100.0 == 100.0
  {
    var t := (a + b) as real;
    var x := a as real / t;
    var y := b as real / t;
    Share(a as real, t);
    Share(b as real, t);
    assert (x + y) * t == a as real + b as real;
    assert (x + y - 1.0) * t == 0.0;
    assert x + y == 1.0;
  }

  /** The rounded share of `count` votes out of `total`, as integer arithmetic:
      round(100 c / t) = (200 c + t) div (2 t). */
  lemma {:induction false} RoundedShare(count: int, total: int)
    requires total > 0
    ensures Round(count as real / total as real * 100.0) == (200 * count + total) / (2 * total)
  {
    var x := count as real / total as real * 100.0;
    var n := 200 * count + total;
    var d := 2 * total;
    var q := n / d;
    var m := n % d;
    DivisionAsReal(n, d);
    HalfUpScaled(count, total);
    var dr := d as real;
    assert (x + 0.5) * dr == q as real * dr + m as real;
    WithinUnit(x + 0.5, q as real, dr, m as real);
    assert q as real <= x + 0.5 < q as real + 1.0;
  }

  /** Integer division restated over the reals. */
  lemma DivisionAsReal(n: int, d: int)
    requires d > 0
    ensures n as real == (n / d) as real * d as real + (n % d) as real
    ensures 0.0 <= (n % d) as real < d as real
  {
    assert n == (n / d) * d + n % d;
  }

  /** Twice the total times (share + 1/2) is 200 c + t. */
  lemma HalfUpScaled(count: int, total: int)
    requires total > 0
    ensures (count as real / total as real * 100.0 + 0.5) * (2 * total) as real == (200 * count + total) as real
  {
    Share(count as real, total as real);
  }

  /** If y * d = q * d + m with 0 <= m < d, then q <= y < q + 1. */
  lemma WithinUnit(y: real, q: real, d: real, m: real)
    requires d > 0.0 && 0.0 <= m < d
    requires y * d == q * d + m
    ensures q <= y < q + 1.0
  {
    var z := y - q;
    assert z * d == m;
    assert z * d < d;
    UnitInterval(z, d);
  }

  /** With at least one vote, each percentage is in [0, 100] and the two add
      up to 100, or to 101 exactly when the true share is an exact half (1 of
      8 votes, say), so that both sides round up. */
  lemma PercentagesSum(story: FeedStory)
    requires story.votesTrue >= 0 && story.votesFalse >= 0
    requires story.votesTrue + story.votesFalse > 0
    ensures var p := CalculatePercentage(story);
      var share := story.votesTrue as real / (story.votesTrue + story.votesFalse) as real * 100.0;
      && 0 <= p.truePercent <= 100
      && 0 <= p.falsePercent <= 100
      && (p.truePercent + p.falsePercent == 100 || p.truePercent + p.falsePercent == 101)
      && (p.truePercent + p.falsePercent == 101 <==> p.truePercent as real == share + 0.5)
  {
    var t := (story.votesTrue + story.votesFalse) as real;
    var x := story.votesTrue as real / t * 100.0;
    var y := story.votesFalse as real / t * 100.0;
    SharesSum(story.votesTrue, story.votesFalse);
    Share(story.votesTrue as real, t);
    Share(story.votesFalse as real, t);
    assert x * t >= 0.0 && y * t >= 0.0;
    assert 0.0 <= x <= 100.0 && 0.0 <= y <= 100.0;
  }

  datatype Elapsed = MinutesAgo(minutes: int) | HoursAgo(hours: int) | DaysAgo(days: int)

  /** `formatTimestamp`: whole minutes under an hour, whole hours under a day,
      whole days otherwise (each a floor division of the elapsed time). */
  function FormatTimestamp(timestamp: int, now: int): (r: Elapsed)
    ensures var diff := now - timestamp;
      && (diff < HOUR_MS <==> r.MinutesAgo?)
      && (HOUR_MS <= diff < DAY_MS <==> r.HoursAgo?)
      && (DAY_MS <= diff <==> r.DaysAgo?)
      && (r.MinutesAgo? ==> r.minutes * MINUTE_MS <= diff < (r.minutes + 1) * MINUTE_MS)
      && (r.HoursAgo? ==> r.hours * HOUR_MS <= diff < (r.hours + 1) * HOUR_MS)
      && (r.DaysAgo? ==> r.days * DAY_MS <= diff < (r.days + 1) * DAY_MS)
  {
    var diffMs := now - timestamp;
    var diffMins := diffMs / MINUTE_MS;
    var diffHours := diffMs / HOUR_MS;
    var diffDays := diffMs / DAY_MS;
    if diffMins < 60 then MinutesAgo(diffMins)
    else if diffHours < 24 then HoursAgo(diffHours)
    else DaysAgo(diffDays)
  }

  /** The noun after the vote count. */
  function VoteNoun(totalVotes: int): string
  {
    if totalVotes == 1 then "vote" else "votes"
  }

  /** The singular is used exactly when the story has one vote in all. */
  lemma VoteNounSingular(story: FeedStory)
    ensures VoteNoun(story.votesTrue + story.votesFalse) == "vote" <==> story.votesTrue + story.votesFalse == 1
  {
  }

  /** Under a singular label, with no negative counts, the one vote takes the
      whole bar: the percentages are 100 and 0 one way or the other. */
  lemma SingleVoteBar(story: FeedStory)
    ensures VoteNoun(story.votesTrue + story.votesFalse) == "vote"
        && story.votesTrue >= 0 && story.votesFalse >= 0
      ==> CalculatePercentage(story) in {Percentages(100, 0), Percentages(0, 100)}
  {
    if story.votesTrue + story.votesFalse == 1 && story.votesTrue >= 0 && story.votesFalse >= 0 {
      if story.votesTrue == 1 {
        assert CalculatePercentage(story) == Percentages(100, 0);
      } else {
        assert CalculatePercentage(story) == Percentages(0, 100);
      }
    }
  }
}

=== FILE: feed_page.dfy ===
/**
 The story record of the community feed and the feed page's local vote
 handler. The handler keeps no record of who voted: every click adds one.
 */
module FeedPage {

  /** A feed story; `status` is "pending", "true" or "false" in the app's
      data, kept as a string because the display falls back on anything else. */
  datatype FeedStory = FeedStory(
    id: string,
    title: string,
    link: string,
    submittedBy: string,
    timestamp: int,
    status: string,
    votesTrue: int,
    votesFalse: int)

  /** One vote applied to a story. */
  function WithVote(story: FeedStory, isTrue: bool): FeedStory
  {
    if isTrue then story.(votesTrue := story.votesTrue + 1)
    else story.(votesFalse := story.votesFalse + 1)
  }

  /** `handleVote`: the list mapped, every story with the given id voted on,
      every other story returned as is. */
  function HandleVote(stories: seq<FeedStory>, storyId: string, isTrue: bool): (r: seq<FeedStory>)
    ensures |r| == |stories|
    ensures forall i :: 0 <= i < |r| && stories[i].id != storyId ==> r[i] == stories[i]
    ensures forall i :: 0 <= i < |r| && stories[i].id == storyId ==>
      && r[i].votesTrue == stories[i].votesTrue + (if isTrue then 1 else 0)
      && r[i].votesFalse == stories[i].votesFalse + (if isTrue then 0 else 1)
      && r[i].(votesTrue := stories[i].votesTrue, votesFalse := stories[i].votesFalse) == stories[i]
  {
    seq(|stories|, i requires 0 <= i < |stories| =>
      if stories[i].id == storyId then WithVote(stories[i], isTrue) else stories[i])
  }

  /** `n` clicks on the same button. */
  function VoteTimes(stories: seq<FeedStory>, storyId: string, isTrue: bool, n: nat): seq<FeedStory>
  {
    if n == 0 then stories else HandleVote(VoteTimes(stories, storyId, isTrue, n - 1), storyId, isTrue)
  }

  /** Nothing guards against repeated votes: `n` clicks raise the chosen
      counter by exactly `n`, leave the other counter and every other field
      alone, and keep the list's length and order. */
  lemma {:induction false} VoteTimesCounts(stories: seq<FeedStory>, storyId: string, isTrue: bool, n: nat)
    ensures |VoteTimes(stories, storyId, isTrue, n)| == |stories|
    ensures forall i :: 0 <= i < |stories| ==>
      var s := VoteTimes(stories, storyId, isTrue, n)[i];
      if stories[i].id == storyId then
        && s.votesTrue == stories[i].votesTrue + (if isTrue then n else 0)
        && s.votesFalse == stories[i].votesFalse + (if isTrue then 0 else n)
        && s.(votesTrue := stories[i].votesTrue, votesFalse := stories[i].votesFalse) == stories[i]
      else s == stories[i]
  {
    if n > 0 {
      VoteTimesCounts(stories, storyId, isTrue, n - 1);
    }
  }
}

=== FILE: how_it_works.dfy ===
/**
 The "how it works" carousel: a step index moved by Next, Previous and the
 step dots, clamped to the five steps.
 */
module HowItWorks {

  const STEP_COUNT: nat := 5

  /** `nextStep`: forward unless on the last step. */
  function NextStep(s: int): (r: int)
    ensures r == s || r == s + 1
    ensures r == s <==> s >= STEP_COUNT - 1
    ensures InRange(s) ==> InRange(r)
  {
    if s < STEP_COUNT - 1 then s + 1 else s
  }

  /** `previousStep`: back unless on the first step. */
  function PreviousStep(s: int): (r: int)
    ensures r == s || r == s - 1
    ensures r == s <==> s <= 0
    ensures InRange(s) ==> InRange(r)
  {
    if s > 0 then s - 1 else s
  }

  /** `goToStep`: jump to `index`. */
  function GoToStep(s: int, index: int): int
  {
    index
  }

  predicate PreviousDisabled(s: int) { s == 0 }

  predicate NextDisabled(s: int) { s == STEP_COUNT - 1 }

  /** A user action; the dots offer only indices of the step list. */
  datatype Action = Next | Previous | GoTo(index: int)

  function Apply(s: int, a: Action): int
  {
    match a
    case Next => NextStep(s)
    case Previous => PreviousStep(s)
    case GoTo(i) => GoToStep(s, i)
  }

  /** The step shown after a sequence of actions. */
  function Run(s: int, actions: seq<Action>): int
    decreases |actions|
  {
    if actions == [] then s else Run(Apply(s, actions[0]), actions[1..])
  }

  predicate InRange(s: int) { 0 <= s < STEP_COUNT }

  /** Every dot offers a step index. */
  predicate DotsOnly(actions: seq<Action>)
  {
    forall k :: 0 <= k < |actions| && actions[k].GoTo? ==> InRange(actions[k].index)
  }

  /** From the first step, any clicks on Next, Previous and the dots keep the
      index on a step. */
  lemma {:induction false} RunStaysInRange(s: int, actions: seq<Action>)
    requires InRange(s) && DotsOnly(actions)
    ensures InRange(Run(s, actions))
    decreases |actions|
  {
    if actions != [] {
      assert InRange(Apply(s, actions[0]));
      RunStaysInRange(Apply(s, actions[0]), actions[1..]);
    }
  }

  lemma StartsInRange(actions: seq<Action>)
    requires DotsOnly(actions)
    ensures InRange(Run(0, actions))
  {
    RunStaysInRange(0, actions);
  }

  /** Next then Previous returns below the last step, Previous then Next
      above the first. */
  lemma NextPreviousInverse(s: int)
    requires InRange(s)
    ensures s < STEP_COUNT - 1 ==> PreviousStep(NextStep(s)) == s
    ensures s > 0 ==> NextStep(PreviousStep(s)) == s
  {
  }

  /** On a step, a button is disabled exactly when clicking it would do
      nothing. */
  lemma DisabledIsNoOp(s: int)
    requires InRange(s)
    ensures PreviousDisabled(s) <==> PreviousStep(s) == s
    ensures NextDisabled(s) <==> NextStep(s) == s
  {
  }
}

=== FILE: js_string.dfy ===
/**
 The two JavaScript string operations the forms and the address display rely
 on: `String.prototype.trim` and `String.prototype.slice`.
 */
module JsString {

  /** The characters `trim` strips: ECMAScript WhiteSpace (tab, vertical tab,
      form feed, space, no-break space, byte order mark and the Unicode space
      separators) and LineTerminator (line feed, carriage return, line and
      paragraph separators). */
  const SPACES: set<char> := {
    '\U{9}', '\U{A}', '\U{B}', '\U{C}', '\U{D}', '\U{20}', '\U{A0}', '\U{1680}',
    '\U{2000}', '\U{2001}', '\U{2002}', '\U{2003}', '\U{2004}', '\U{2005}', '\U{2006}', '\U{2007}',
    '\U{2008}', '\U{2009}', '\U{200A}', '\U{2028}', '\U{2029}', '\U{202F}', '\U{205F}', '\U{3000}',
    '\U{FEFF}'}

  predicate IsSpace(c: char)
  {
    c in SPACES
  }

  predicate AllSpace(s: string)
  {
    forall k :: 0 <= k < |s| ==> IsSpace(s[k])
  }

  /** `s` without its leading white space. */
  function TrimStart(s: string): (r: string)
    ensures |r| <= |s| && r == s[|s| - |r|..]
    ensures forall k :: 0 <= k < |s| - |r| ==> IsSpace(s[k])
    ensures r != [] ==> !IsSpace(r[0])
  {
    if s == [] || !IsSpace(s[0]) then s else TrimStart(s[1..])
  }

  /** `s` without its trailing white space. */
  function TrimEnd(s: string): (r: string)
    ensures |r| <= |s| && r == s[..|r|]
    ensures forall k :: |r| <= k < |s| ==> IsSpace(s[k])
    ensures r != [] ==> !IsSpace(r[|r| - 1])
  {
    if s == [] || !IsSpace(s[|s| - 1]) then s else TrimEnd(s[..|s| - 1])
  }

  /** Every character of `s` from `lo` up to `hi` is white space. */
  predicate SpaceBetween(s: string, lo: int, hi: int)
    requires 0 <= lo <= hi <= |s|
  {
    forall k :: lo <= k < hi ==> IsSpace(s[k])
  }

  /** `r` is the slice of `s` starting at `i`, with only white space before
      and after it. */
  predicate MiddleAt(s: string, r: string, i: int)
  {
    && 0 <= i <= |s| - |r| && r == s[i..i + |r|]
    && SpaceBetween(s, 0, i) && SpaceBetween(s, i + |r|, |s|)
  }

  /** `s.trim()`: the middle of `s` with only white space cut from either
      end; empty exactly when `s` is all white space, and otherwise neither
      starting nor ending with white space. */
  function Trim(s: string): (r: string)
    ensures |r| <= |s|
    ensures exists i :: MiddleAt(s, r, i)
    ensures r == [] <==> AllSpace(s)
    ensures r != [] ==> !IsSpace(r[0]) && !IsSpace(r[|r| - 1])
  {
    var t := TrimStart(s);
    var r := TrimEnd(t);
    TrimShape(s, t, r);
    r
  }

  /** What cutting white space from the front and then from the back
      leaves: a middle of `s` that is empty exactly when `s` is all white
      space and otherwise starts and ends with something else. */
  lemma TrimShape(s: string, t: string, r: string)
    requires t == TrimStart(s) && r == TrimEnd(t)
    ensures exists i :: MiddleAt(s, r, i)
    ensures r == [] <==> AllSpace(s)
    ensures r != [] ==> !IsSpace(r[0]) && !IsSpace(r[|r| - 1])
  {
    assert SpaceBetween(s, 0, |s| - |t|);
    assert SpaceBetween(t, |r|, |t|);
    TrimMiddle(s, t, r);
    TrimEmpty(s, t, r);
    if r != [] {
      var last := r[|r| - 1];
      assert !IsSpace(last);
    }
  }

  /** Cutting white space from the front and then from the back leaves a
      slice of `s` with only white space outside it. */
  lemma TrimMiddle(s: string, t: string, r: string)
    requires |t| <= |s| && t == s[|s| - |t|..] && SpaceBetween(s, 0, |s| - |t|)
    requires |r| <= |t| && r == t[..|r|] && SpaceBetween(t, |r|, |t|)
    ensures MiddleAt(s, r, |s| - |t|)
  {
    var i := |s| - |t|;
    forall k | i + |r| <= k < |s|
      ensures IsSpace(s[k])
    {
      assert s[k] == t[k - i];
    }
    SliceOfSuffix(s, i, |r|);
  }

  /** A prefix of a suffix is a slice. */
  lemma SliceOfSuffix<T>(s: seq<T>, i: nat, n: nat)
    requires i + n <= |s|
    ensures s[i..][..n] == s[i..i + n]
  {
  }

  /** Stripping both ends leaves nothing exactly when every character of `s`
      is white space, and keeps the first character of the left-trimmed
      string when something is left. */
  lemma TrimEmpty(s: string, t: string, r: string)
    requires t == TrimStart(s) && r == TrimEnd(t)
    ensures r == [] <==> AllSpace(s)
    ensures r != [] ==> r[0] == t[0]
  {
    if r == [] {
      forall k | 0 <= k < |s|
        ensures IsSpace(s[k])
      {
      }
    } else {
      assert r[0] == t[0];
    }
  }

  /** Trimming twice is trimming once. */
  lemma TrimIdempotent(s: string)
    ensures Trim(Trim(s)) == Trim(s)
  {
    var r := Trim(s);
    if r != [] {
      assert TrimStart(r) == r;
      assert TrimEnd(r) == r;
    }
  }

  /** A JavaScript `slice` index resolved against a length: a negative one
      counts back from the end, and both are clamped to [0, len]. */
  function ResolveIndex(i: int, len: nat): (r: nat)
    ensures r <= len
    ensures i >= 0 ==> r == (if i < len then i else len)
    ensures i < 0 ==> r == (if len + i > 0 then len + i else 0)
  {
    if i < 0 then (if len + i > 0 then len + i else 0)
    else if i < len then i else len
  }

  /** `s.slice(start, end)`: empty when the resolved end is not after the
      resolved start. */
  function Slice(s: string, start: int, end: int): (r: string)
    ensures |r| <= |s|
    ensures ResolveIndex(start, |s|) < ResolveIndex(end, |s|) ==>
      r == s[ResolveIndex(start, |s|)..ResolveIndex(end, |s|)]
    ensures ResolveIndex(start, |s|) >= ResolveIndex(end, |s|) ==> r == []
  {
    var from := ResolveIndex(start, |s|);
    var to := ResolveIndex(end, |s|);
    if from < to then s[from..to] else []
  }

  /** `s.slice(start)`: up to the end of the string. */
  function SliceFrom(s: string, start: int): (r: string)
    ensures r == s[ResolveIndex(start, |s|)..]
  {
    Slice(s, start, |s|)
  }
}

=== FILE: ledger.dfy ===
/**
 The persistent records of the fact-checking app (users, stories, votes and
 transactions) and the in-memory store the settlement logic works on.

 Money is an exact `real`, reputation an `int` and every timestamp an `int`
 number of milliseconds since the epoch. Row identifiers are strings.
 */
module Ledger {
  import opened Optional

  /** A row of the `users` table. */
  datatype User = User(
    id: string,
    walletAddress: string,
    reputation: int,
    earnings: real,
    isAdmin: bool,
    createdAt: int)

  /** Lifecycle of a story: voting, then tallied, then distributed. */
  datatype Status = Voting | Tallied | Distributed

  /** A row of the `stories` table; `finalResult` is `None` until tallied
      and otherwise holds the verdict ("true" as `true`, "false" as `false`). */
  datatype Story = Story(
    id: string,
    title: string,
    link: string,
    submittedBy: string,
    submissionFee: real,
    createdAt: int,
    votingEndsAt: int,
    status: Status,
    finalResult: Option<bool>,
    votesTrue: int,
    votesFalse: int,
    totalVotes: int)

  /** A row of the `votes` table. */
  datatype Vote = Vote(id: string, storyId: string, userId: string, vote: bool, createdAt: int)

  /** Transaction kinds. The first three are the ones the `transactions`
      table declares; the last two are the labels the alternative
      finalization rules write. */
  datatype TxKind = SubmissionFee | VoteReward | AdminFee | PlatformFee | VotingReward

  /** An append-only ledger entry (the store assigns the id and timestamp). */
  datatype Transaction = Transaction(userId: string, storyId: Option<string>, amount: real, kind: TxKind)

  /** The whole store seen by one settlement step. */
  datatype Store = Store(
    users: map<string, User>,
    votes: seq<Vote>,
    transactions: seq<Transaction>,
    story: Story)

  /** The votes cast on story `storyId`, in store order. */
  function VotesFor(votes: seq<Vote>, storyId: string): (r: seq<Vote>)
    ensures |r| <= |votes|
    ensures forall v :: v in r <==> v in votes && v.storyId == storyId
  {
    if votes == [] then []
    else (if votes[0].storyId == storyId then [votes[0]] else []) + VotesFor(votes[1..], storyId)
  }

  /** Filtering by story keeps every copy of a vote on that story and drops
      every other vote. */
  lemma {:induction false} VotesForCounts(votes: seq<Vote>, storyId: string, v: Vote)
    ensures multiset(VotesFor(votes, storyId))[v]
      == (if v.storyId == storyId then multiset(votes)[v] else 0)
  {
    if votes != [] {
      assert votes == [votes[0]] + votes[1..];
      VotesForCounts(votes[1..], storyId, v);
    }
  }

  /** The votes whose decision equals `decision`, in order. */
  function WithDecision(votes: seq<Vote>, decision: bool): (r: seq<Vote>)
    ensures |r| <= |votes|
    ensures forall v :: v in r <==> v in votes && v.vote == decision
  {
    if votes == [] then []
    else (if votes[0].vote == decision then [votes[0]] else []) + WithDecision(votes[1..], decision)
  }

  /** Filtering by decision keeps every copy of a vote with that decision
      and drops every other vote. */
  lemma {:induction false} WithDecisionCounts(votes: seq<Vote>, decision: bool, v: Vote)
    ensures multiset(WithDecision(votes, decision))[v]
      == (if v.vote == decision then multiset(votes)[v] else 0)
  {
    if votes != [] {
      assert votes == [votes[0]] + votes[1..];
      WithDecisionCounts(votes[1..], decision, v);
    }
  }

  /** Number of votes in `votes` cast by user `userId`. */
  function CountBy(votes: seq<Vote>, userId: string): (n: nat)
    ensures n <= |votes|
    ensures n == 0 <==> forall v :: v in votes ==> v.userId != userId
  {
    if votes == [] then 0
    else (if votes[0].userId == userId then 1 else 0) + CountBy(votes[1..], userId)
  }

  /** Number of votes in `votes` whose voter has a row in `users`. */
  function CountKnown(votes: seq<Vote>, users: set<string>): (n: nat)
    ensures n <= |votes|
    ensures n == |votes| <==> forall v :: v in votes ==> v.userId in users
  {
    if votes == [] then 0
    else (if votes[0].userId in users then 1 else 0) + CountKnown(votes[1..], users)
  }

  /** `n` copies of `x` added up: `n * x` without a nonlinear product. */
  function Times(n: nat, x: real): real
  {
    if n == 0 then 0.0 else x + Times(n - 1, x)
  }

  lemma {:induction false} TimesIsProduct(n: nat, x: real)
    ensures Times(n, x) == n as real * x
  {
    if n > 0 {
      TimesIsProduct(n - 1, x);
    }
  }

  /** Sum of the amounts of a run of transactions. */
  function SumAmounts(txs: seq<Transaction>): real
  {
    if txs == [] then 0.0 else txs[0].amount + SumAmounts(txs[1..])
  }

  /** Sum of the amounts of the transactions recorded for user `userId`. */
  function SumFor(txs: seq<Transaction>, userId: string): real
  {
    if txs == [] then 0.0
    else (if txs[0].userId == userId then txs[0].amount else 0.0) + SumFor(txs[1..], userId)
  }

  /** Number of transactions of kind `kind` recorded for user `userId`. */
  function CountFor(txs: seq<Transaction>, userId: string, kind: TxKind): (n: nat)
    ensures n <= |txs|
  {
    if txs == [] then 0
    else (if txs[0].userId == userId && txs[0].kind == kind then 1 else 0) + CountFor(txs[1..], userId, kind)
  }

  lemma {:induction false} SumAmountsAppend(a: seq<Transaction>, b: seq<Transaction>)
    ensures SumAmounts(a + b) == SumAmounts(a) + SumAmounts(b)
  {
    if a == [] {
      assert a + b == b;
    } else {
      assert (a + b)[1..] == a[1..] + b;
      SumAmountsAppend(a[1..], b);
    }
  }

  lemma {:induction false} SumForAppend(a: seq<Transaction>, b: seq<Transaction>, userId: string)
    ensures SumFor(a + b, userId) == SumFor(a, userId) + SumFor(b, userId)
  {
    if a == [] {
      assert a + b == b;
    } else {
      assert (a + b)[1..] == a[1..] + b;
      SumForAppend(a[1..], b, userId);
    }
  }

  lemma {:induction false} CountForAppend(a: seq<Transaction>, b: seq<Transaction>, userId: string, kind: TxKind)
    ensures CountFor(a + b, userId, kind) == CountFor(a, userId, kind) + CountFor(b, userId, kind)
  {
    if a == [] {
      assert a + b == b;
    } else {
      assert (a + b)[1..] == a[1..] + b;
      CountForAppend(a[1..], b, userId, kind);
    }
  }
}

=== FILE: navbar.dfy ===
/**
 The navigation bar's copy of the address shortener, stated here with
 prefixes and suffixes instead of `slice`.
 */
module Navbar {
  import opened Optional
  import WalletConnect

  /** `formatAddress`: at most six leading characters, "..." and at most four
      trailing characters. */
  function FormatAddress(address: Option<string>): (r: string)
    ensures address.None? || address.value == "" ==> r == ""
    ensures address.Some? && |address.value| >= 10 ==> |r| == 13
  {
    if address.None? || address.value == "" then ""
    else
      var a := address.value;
      var head := if |a| < 6 then |a| else 6;
      var tail := if |a| < 4 then |a| else 4;
      a[..head] + "..." + a[|a| - tail..]
  }

  /** Both copies of the shortener agree on every input. */
  lemma SameAsWalletConnect(address: Option<string>)
    ensures FormatAddress(address) == WalletConnect.FormatAddress(address)
  {
  }
}

=== FILE: optional.dfy ===
/** An optional value: a missing row, a null column, a falsy JavaScript value. */
module Optional {

  datatype Option<+T> = None | Some(value: T)
}

=== FILE: story_finalization.dfy ===
/**
 The alternative finalization rules kept, entirely commented out, beside the
 live admin engine. They are a second rule set, not running behaviour:

 - a story is finalized once it is a day old and still has no verdict;
 - with no votes at all the verdict is "false" and nothing is paid;
 - with no correct voter the whole fixed fee goes to the builder wallet;
 - otherwise the builder wallet gets 40% and the correct voters share 60%;
 - correct voters gain 10 reputation; incorrect voters are left alone;
 - payouts are only written to the transaction log (no earnings update).

 The fee split uses the fixed `SUBMISSION_FEE`, not the story's own fee.
 */
module StoryFinalization {
  import opened Optional
  import opened Clock
  import opened Ledger

  const BUILDER_WALLET: string := "0xYourBuilderWalletAddress"
  const PLATFORM_CUT: real := 0.40
  const VOTERS_CUT: real := 0.60
  const SUBMISSION_FEE: real := 1.00
  const REPUTATION_POINTS: int := 10

  /** The selection filter: no verdict yet, created strictly before a day
      (`DAY_MS`) ago. */
  predicate Expired(story: Story, now: int)
  {
    story.finalResult.None? && story.createdAt < now - DAY_MS
  }

  /** The stories selected for finalization, in query order. */
  function SelectExpired(stories: seq<Story>, now: int): (r: seq<Story>)
    ensures |r| <= |stories|
    ensures forall s :: s in r <==> s in stories && s.finalResult.None? && s.createdAt < now - DAY_MS
  {
    if stories == [] then []
    else (if Expired(stories[0], now) then [stories[0]] else []) + SelectExpired(stories[1..], now)
  }

  /** The verdict: "false" without votes, else "true" iff true votes strictly
      outnumber false ones. */
  function Verdict(story: Story): (r: bool)
    ensures r <==> story.votesTrue + story.votesFalse != 0 && story.votesTrue > story.votesFalse
  {
    var totalVotes := story.votesTrue + story.votesFalse;
    if totalVotes == 0 then false else story.votesTrue > story.votesFalse
  }

  /** Each correct voter whose row exists gains `REPUTATION_POINTS`. */
  function AwardReputation(users: map<string, User>, correct: seq<Vote>): (r: map<string, User>)
    ensures r.Keys == users.Keys
  {
    if correct == [] then users
    else
      var id := correct[0].userId;
      var next := if id in users
        then users[id := users[id].(reputation := users[id].reputation + REPUTATION_POINTS)]
        else users;
      AwardReputation(next, correct[1..])
  }

  /** A user's reputation rises by 10 per correct vote; nothing else changes. */
  lemma {:induction false} AwardReputationAt(users: map<string, User>, correct: seq<Vote>, id: string)
    requires id in users
    ensures AwardReputation(users, correct)[id]
      == users[id].(reputation := users[id].reputation + REPUTATION_POINTS * CountBy(correct, id))
  {
    if correct != [] {
      var v := correct[0].userId;
      var next := if v in users
        then users[v := users[v].(reputation := users[v].reputation + REPUTATION_POINTS)]
        else users;
      AwardReputationAt(next, correct[1..], id);
    }
  }

  /** The `voting_reward` rows: one per correct vote, whether or not the
      voter has a user row. */
  function VoterTransactions(correct: seq<Vote>, storyId: string, reward: real): (r: seq<Transaction>)
    ensures |r| == |correct|
    ensures forall i :: 0 <= i < |r| ==>
      r[i] == Transaction(correct[i].userId, Some(storyId), reward, VotingReward)
  {
    if correct == [] then []
    else
      [Transaction(correct[0].userId, Some(storyId), reward, VotingReward)]
        + VoterTransactions(correct[1..], storyId, reward)
  }

  lemma {:induction false} VoterTransactionsTotal(correct: seq<Vote>, storyId: string, reward: real)
    ensures SumAmounts(VoterTransactions(correct, storyId, reward)) == Times(|correct|, reward)
  {
    if correct != [] {
      var head := [Transaction(correct[0].userId, Some(storyId), reward, VotingReward)];
      assert VoterTransactions(correct, storyId, reward) == head + VoterTransactions(correct[1..], storyId, reward);
      SumAmountsAppend(head, VoterTransactions(correct[1..], storyId, reward));
      VoterTransactionsTotal(correct[1..], storyId, reward);
    }
  }

  /** A `platform_fee` row for the builder wallet. */
  function PlatformTransaction(storyId: string, amount: real): Transaction
  {
    Transaction(BUILDER_WALLET, Some(storyId), amount, PlatformFee)
  }

  /** The rows appended when `correct` are the correct votes: the builder
      wallet's `platform_fee` row first, then one `voting_reward` row per
      correct vote, in vote order, all for the story. */
  function PayoutTransactions(correct: seq<Vote>, storyId: string): (r: seq<Transaction>)
    ensures |r| == |correct| + 1
    ensures r[0].userId == BUILDER_WALLET && r[0].kind == PlatformFee
    ensures forall i :: 0 <= i < |r| ==> r[i].storyId == Some(storyId)
    ensures forall i :: 1 <= i < |r| ==> r[i].kind == VotingReward && r[i].userId == correct[i - 1].userId
  {
    if |correct| == 0 then [PlatformTransaction(storyId, SUBMISSION_FEE)]
    else
      var rewardPerVoter := SUBMISSION_FEE * VOTERS_CUT / |correct| as real;
      [PlatformTransaction(storyId, SUBMISSION_FEE * PLATFORM_CUT)]
        + VoterTransactions(correct, storyId, rewardPerVoter)
  }

  /** The correct votes of the story under verdict `verdict`. */
  function CorrectVotes(st: Store, verdict: bool): seq<Vote>
  {
    WithDecision(VotesFor(st.votes, st.story.id), verdict)
  }

  /** `distributeRewards`: nothing when the story has no vote rows; otherwise
      the platform row, then a reward row and reputation per correct vote. */
  function DistributeRewards(st: Store, verdict: bool): (r: Store)
    ensures r.story == st.story && r.votes == st.votes
    ensures r.users.Keys == st.users.Keys
    ensures forall id :: id in st.users ==> r.users[id].earnings == st.users[id].earnings
    ensures |r.transactions| >= |st.transactions| && r.transactions[..|st.transactions|] == st.transactions
    ensures VotesFor(st.votes, st.story.id) == [] ==> r == st
    ensures VotesFor(st.votes, st.story.id) != [] ==>
      && r.transactions == st.transactions + PayoutTransactions(CorrectVotes(st, verdict), st.story.id)
      && forall id :: id in st.users ==>
           r.users[id].reputation
             == st.users[id].reputation + REPUTATION_POINTS * CountBy(CorrectVotes(st, verdict), id)
  {
    if VotesFor(st.votes, st.story.id) == [] then st
    else
      var correct := CorrectVotes(st, verdict);
      var users := AwardReputation(st.users, correct);
      assert forall id :: id in st.users ==>
        && users[id].earnings == st.users[id].earnings
        && users[id].reputation == st.users[id].reputation + REPUTATION_POINTS * CountBy(correct, id)
      by {
        forall id | id in st.users
          ensures users[id].earnings == st.users[id].earnings
          ensures users[id].reputation == st.users[id].reputation + REPUTATION_POINTS * CountBy(correct, id)
        {
          AwardReputationAt(st.users, correct, id);
        }
      }
      st.(users := users, transactions := st.transactions + PayoutTransactions(correct, st.story.id))
  }

  /** `finalizeStory`: record the verdict, then distribute if any vote was
      counted on the story: when the story also has vote rows, the payout
      rows for the voters who matched the verdict are appended; otherwise no
      balance or log row changes. */
  function FinalizeStory(st: Store): (r: Store)
    ensures r.story == st.story.(finalResult := Some(Verdict(st.story)))
    ensures r.votes == st.votes
    ensures st.story.votesTrue + st.story.votesFalse <= 0 || VotesFor(st.votes, st.story.id) == [] ==>
      r.users == st.users && r.transactions == st.transactions
    ensures st.story.votesTrue + st.story.votesFalse > 0 && VotesFor(st.votes, st.story.id) != [] ==>
      r.transactions == st.transactions + PayoutTransactions(CorrectVotes(st, Verdict(st.story)), st.story.id)
  {
    var verdict := Verdict(st.story);
    var decided := st.(story := st.story.(finalResult := Some(verdict)));
    assert CorrectVotes(decided, verdict) == CorrectVotes(st, verdict);
    if st.story.votesTrue + st.story.votesFalse > 0 then DistributeRewards(decided, verdict) else decided
  }

  /** `finalizeExpiredStories` over a store holding one story. */
  function FinalizeExpired(st: Store, now: int): (r: Store)
    ensures !Expired(st.story, now) ==> r == st
    ensures Expired(st.story, now) ==> r.story.finalResult == Some(Verdict(st.story))
  {
    if Expired(st.story, now) then FinalizeStory(st) else st
  }

  /** Finalization happens once: a finalized story is never selected again. */
  lemma FinalizeOnce(st: Store, now: int, later: int)
    requires Expired(st.story, now)
    ensures !Expired(FinalizeExpired(st, now).story, later)
    ensures FinalizeExpired(FinalizeExpired(st, now), later) == FinalizeExpired(st, now)
  {
  }

  // ----- The fee split -----

  /** With no correct voter the whole fixed fee goes to the builder wallet. */
  lemma NoCorrectVoterPaysPlatform(storyId: string)
    ensures PayoutTransactions([], storyId) == [PlatformTransaction(storyId, SUBMISSION_FEE)]
    ensures SumAmounts(PayoutTransactions([], storyId)) == SUBMISSION_FEE
  {
  }

  /** With k > 0 correct voters the builder wallet gets 40%, each voter 60%/k,
      and the rows add up to exactly the fee, since the cuts sum to one. */
  lemma {:induction false} PayoutConservesFee(correct: seq<Vote>, storyId: string)
    ensures SumAmounts(PayoutTransactions(correct, storyId)) == SUBMISSION_FEE
    ensures |correct| > 0 ==>
      && PayoutTransactions(correct, storyId)[0] == PlatformTransaction(storyId, SUBMISSION_FEE * PLATFORM_CUT)
      && forall i :: 1 <= i < |PayoutTransactions(correct, storyId)| ==>
           var t := PayoutTransactions(correct, storyId)[i];
           t.kind == VotingReward && t.userId == correct[i - 1].userId
           && Times(|correct|, t.amount) == SUBMISSION_FEE * VOTERS_CUT
  {
    var k := |correct|;
    if k > 0 {
      var reward := SUBMISSION_FEE * VOTERS_CUT / k as real;
      var platform := [PlatformTransaction(storyId, SUBMISSION_FEE * PLATFORM_CUT)];
      VoterTransactionsTotal(correct, storyId, reward);
      SumAmountsAppend(platform, VoterTransactions(correct, storyId, reward));
      TimesIsProduct(k, reward);
      assert Times(k, reward) == SUBMISSION_FEE * VOTERS_CUT;
    }
  }

  /** A finalization pays exactly when a vote was counted and the story has
      vote rows, and then the appended rows add up to exactly
      `SUBMISSION_FEE`; otherwise the log is left as it was. */
  lemma FinalizeConservesFee(st: Store)
    ensures var r := FinalizeStory(st);
      && |r.transactions| >= |st.transactions|
      && (|r.transactions| > |st.transactions|
          <==> st.story.votesTrue + st.story.votesFalse > 0 && VotesFor(st.votes, st.story.id) != [])
      && (|r.transactions| == |st.transactions| ==> r.transactions == st.transactions)
      && (|r.transactions| > |st.transactions| ==>
            SumAmounts(r.transactions[|st.transactions|..]) == SUBMISSION_FEE)
  {
    var verdict := Verdict(st.story);
    var decided := st.(story := st.story.(finalResult := Some(verdict)));
    var correct := CorrectVotes(decided, verdict);
    if st.story.votesTrue + st.story.votesFalse > 0 && VotesFor(decided.votes, decided.story.id) != [] {
      var r := FinalizeStory(st);
      assert r.transactions == st.transactions + PayoutTransactions(correct, st.story.id);
      assert r.transactions[|st.transactions|..] == PayoutTransactions(correct, st.story.id);
      PayoutConservesFee(correct, st.story.id);
    }
  }

  /** Reputation in this rule set: +10 per correct vote for voters with a row,
      and incorrect voters untouched. */
  lemma FinalizeReputation(st: Store, id: string)
    requires id in st.users
    requires st.story.votesTrue + st.story.votesFalse > 0
    ensures var r := FinalizeStory(st);
      var correct := CorrectVotes(st, Verdict(st.story));
      && id in r.users
      && r.users[id] == st.users[id].(reputation := st.users[id].reputation + REPUTATION_POINTS * CountBy(correct, id))
      && (CountBy(correct, id) == 0 ==> r.users[id] == st.users[id])
  {
    var verdict := Verdict(st.story);
    var decided := st.(story := st.story.(finalResult := Some(verdict)));
    var correct := CorrectVotes(decided, verdict);
    assert CorrectVotes(st, verdict) == correct;
    if VotesFor(decided.votes, decided.story.id) != [] {
      AwardReputationAt(st.users, correct, id);
    } else {
      assert correct == [];
    }
  }
}

=== FILE: submit_claim.dfy ===
/**
 The claim submission page: the wallet check comes first, then the summary
 check; a valid claim is sent to the data service with the trimmed summary,
 the optional file hash and the wallet address.

 The data service is a mock that always succeeds; whether the call fails is
 a parameter here, so that the failure path is covered as written.
 */
module SubmitClaim {
  import opened Optional
  import opened JsString

  /** The page state that `handleSubmit` reads and writes. */
  datatype Page = Page(summary: string, ipfsHash: string, loading: bool, error: string)

  /** The record sent to the data service. */
  datatype Payload = Payload(summary: string, ipfsHash: Option<string>, walletAddress: string)

  /** Where a submit ended: stopped by a check, or sent (and then navigated
      away or failed). */
  datatype Outcome = Stopped | Sent(payload: Payload, succeeded: bool)

  datatype Step = Step(page: Page, outcome: Outcome)

  const CONNECT_WALLET: string := "Please connect your wallet first"
  const ENTER_SUMMARY: string := "Please enter a claim summary"
  const SUBMIT_FAILED: string := "Failed to submit claim. Please try again."

  /** A connected account: present and not the empty string. */
  predicate Connected(account: Option<string>)
  {
    account.Some? && account.value != ""
  }

  /** `handleSubmit`, with `serviceFails` standing for a rejected service call. */
  function HandleSubmit(page: Page, account: Option<string>, serviceFails: bool): (r: Step)
    ensures r.page.summary == page.summary && r.page.ipfsHash == page.ipfsHash
    ensures !Connected(account) ==> r == Step(page.(error := CONNECT_WALLET), Stopped)
    ensures Connected(account) && AllSpace(page.summary) ==> r == Step(page.(error := ENTER_SUMMARY), Stopped)
    ensures r.outcome.Sent? <==> Connected(account) && !AllSpace(page.summary)
    ensures r.outcome.Sent? ==>
      && r.outcome.payload.summary == Trim(page.summary)
      && (r.outcome.payload.ipfsHash == None <==> page.ipfsHash == "")
      && (r.outcome.payload.ipfsHash.Some? ==> r.outcome.payload.ipfsHash.value == page.ipfsHash)
      && r.outcome.payload.walletAddress == account.value
      && !r.page.loading
      && (r.outcome.succeeded <==> !serviceFails)
      && r.page.error == (if serviceFails then SUBMIT_FAILED else "")
  {
    var cleared := page.(error := "");
    if !Connected(account) then Step(cleared.(error := CONNECT_WALLET), Stopped)
    else if Trim(page.summary) == [] then Step(cleared.(error := ENTER_SUMMARY), Stopped)
    else
      var loading := cleared.(loading := true);
      var payload := Payload(Trim(page.summary), if page.ipfsHash == "" then None else Some(page.ipfsHash), account.value);
      var settled := if serviceFails then loading.(error := SUBMIT_FAILED) else loading;
      Step(settled.(loading := false), Sent(payload, !serviceFails))
  }

  /** After a submit the page shows no error exactly when the claim went out
      and the service took it; an earlier error never survives. */
  lemma ErrorShownUnlessSent(page: Page, account: Option<string>, serviceFails: bool)
    ensures var r := HandleSubmit(page, account, serviceFails);
      && (r.page.error == "" <==> r.outcome.Sent? && r.outcome.succeeded)
      && r.page.error in {"", CONNECT_WALLET, ENTER_SUMMARY, SUBMIT_FAILED}
  {
  }

  /** With a wallet and a summary, a retry after a failed submit sends the
      same payload and ends with no error shown. */
  lemma RetrySendsSamePayload(page: Page, account: Option<string>)
    requires Connected(account) && !AllSpace(page.summary)
    ensures var failed := HandleSubmit(page, account, true);
      var retried := HandleSubmit(failed.page, account, false);
      && retried.outcome == Sent(failed.outcome.payload, true)
      && retried.page == page.(loading := false, error := "")
  {
  }
}

=== FILE: submit_page.dfy ===
/**
 The stand-alone submit page: the same check as the landing-page form, but
 an accepted submission is only acknowledged and the input is discarded.
 */
module SubmitPage {
  import opened JsString
  import VerifyForm

  datatype Outcome = Rejected(message: string) | Acknowledged

  datatype Step = Step(form: VerifyForm.Form, outcome: Outcome)

  /** `handleSubmit`: nothing is built from the input. */
  function HandleSubmit(form: VerifyForm.Form): (r: Step)
    ensures r.outcome.Rejected? <==> AllSpace(form.title) || AllSpace(form.link)
    ensures r.outcome.Rejected? ==> r.form == form && r.outcome.message == VerifyForm.FILL_IN_ALL_FIELDS
    ensures r.outcome.Acknowledged? ==> r.form == VerifyForm.Form("", "")
  {
    if Trim(form.title) == [] || Trim(form.link) == [] then Step(form, Rejected(VerifyForm.FILL_IN_ALL_FIELDS))
    else Step(VerifyForm.Form("", ""), Acknowledged)
  }

  /** The page accepts exactly the input the landing-page form accepts, with
      the same message and the same resulting fields. */
  lemma SameAsVerifyForm(form: VerifyForm.Form)
    ensures HandleSubmit(form).form == VerifyForm.HandleSubmit(form).form
    ensures HandleSubmit(form).outcome.Acknowledged? <==> VerifyForm.HandleSubmit(form).outcome.Accepted?
    ensures HandleSubmit(form).outcome.Rejected? ==>
      HandleSubmit(form).outcome.message == VerifyForm.HandleSubmit(form).outcome.message
  {
  }
}

=== FILE: verify_form.dfy ===
/**
 The landing-page story form: both fields must hold something other than
 white space; an accepted story carries the trimmed fields, a placeholder
 submitter and the "pending" status, and the form is cleared.
 */
module VerifyForm {
  import opened JsString

  /** The two controlled inputs of the form. */
  datatype Form = Form(title: string, link: string)

  /** The story handed to the `onSubmit` callback. */
  datatype NewStory = NewStory(title: string, link: string, submittedBy: string, status: string)

  /** What a submit does: show an error and stop, or hand on one story. */
  datatype Outcome = Rejected(message: string) | Accepted(story: NewStory)

  datatype Step = Step(form: Form, outcome: Outcome)

  const PLACEHOLDER_SUBMITTER: string := "0x0000...0000"
  const FILL_IN_ALL_FIELDS: string := "Please fill in all fields"

  /** A field counts as filled when it is not all white space. */
  predicate Filled(field: string)
  {
    Trim(field) != []
  }

  /** `handleSubmit`. */
  function HandleSubmit(form: Form): (r: Step)
    ensures r.outcome.Rejected? <==> AllSpace(form.title) || AllSpace(form.link)
    ensures r.outcome.Rejected? ==> r.form == form && r.outcome.message == FILL_IN_ALL_FIELDS
    ensures r.outcome.Accepted? ==>
      && r.form == Form("", "")
      && r.outcome.story == NewStory(Trim(form.title), Trim(form.link), PLACEHOLDER_SUBMITTER, "pending")
      && r.outcome.story.title != [] && !IsSpace(r.outcome.story.title[0])
      && r.outcome.story.link != [] && !IsSpace(r.outcome.story.link[0])
  {
    if !Filled(form.title) || !Filled(form.link) then Step(form, Rejected(FILL_IN_ALL_FIELDS))
    else
      var story := NewStory(Trim(form.title), Trim(form.link), PLACEHOLDER_SUBMITTER, "pending");
      Step(Form("", ""), Accepted(story))
  }

  /** The cleared form cannot be submitted again: an accepted story is
      handed on once per filled-in form. */
  lemma ClearedFormRejected(form: Form)
    requires !AllSpace(form.title) && !AllSpace(form.link)
    ensures HandleSubmit(HandleSubmit(form).form).outcome == Rejected(FILL_IN_ALL_FIELDS)
  {
    assert AllSpace("");
  }

  /** Typing an accepted story's fields back in yields the same story. */
  lemma ResubmitSameStory(form: Form)
    requires !AllSpace(form.title) && !AllSpace(form.link)
    ensures var story := HandleSubmit(form).outcome.story;
      HandleSubmit(Form(story.title, story.link)).outcome == Accepted(story)
  {
    TrimIdempotent(form.title);
    TrimIdempotent(form.link);
  }
}

=== FILE: wallet_connect.dfy ===
/**
 The wallet button: the shortened address and the two class-name choices.
 An address that is absent or empty counts as falsy.
 */
module WalletConnect {
  import opened Optional
  import opened JsString

  /** `formatAddress`: the first six characters, an ellipsis and the last
      four, each cut with `slice`. */
  function FormatAddress(addr: Option<string>): (r: string)
    ensures addr.None? || addr.value == "" ==> r == ""
    ensures addr.Some? && addr.value != "" ==>
      var a := addr.value;
      var head := if |a| < 6 then |a| else 6;
      var tail := if |a| < 4 then |a| else 4;
      && |r| == head + 3 + tail
      && r[..head] == a[..head]
      && r[head..head + 3] == "..."
      && r[head + 3..] == a[|a| - tail..]
  {
    if addr.None? || addr.value == "" then ""
    else Slice(addr.value, 0, 6) + "..." + SliceFrom(addr.value, -4)
  }

  /** A full-length address shortens to 13 characters keeping its first six
      and last four. */
  lemma FormatLongAddress(a: string)
    requires |a| >= 10
    ensures var r := FormatAddress(Some(a));
      && |r| == 13
      && r[..6] == a[..6]
      && r[6..9] == "..."
      && r[9..] == a[|a| - 4..]
  {
  }

  function SizeClass(size: string): (r: string)
    ensures r == "h-12 px-6 text-base" <==> size == "lg"
    ensures r != "h-12 px-6 text-base" ==> r == "px-6 py-2"
  {
    if size == "lg" then "h-12 px-6 text-base" else "px-6 py-2"
  }

  function WidthClass(fullWidth: bool): (r: string)
    ensures r == "w-full" <==> fullWidth
    ensures !fullWidth ==> r == ""
  {
    if fullWidth then "w-full" else ""
  }
}
